=== FILE: README.md ===
# Webchat core, modelled in Dafny

This project models the statable logic of Webchat, a Discord-like chat
product. It covers the browser client's state stores, its WebSocket
wrapper, its toast queue, its channel sidebar and its REST helpers. It also
covers the Rust services' registration and login rules, JWT claim
construction, the initial server record, and the Redis cache's key scheme.

Each piece is a pure transition over an immutable record. Effects are
inputs:

- HTTP replies, database lookups and inserts, and Redis availability are
  explicit success or failure values.
- `JSON.parse`/`JSON.stringify`, serde, Argon2 and the JWT encoder are
  function-typed parameters.
- The clock, random toast ids, generated object ids and the browser's
  acceptance of a WebSocket URL are parameters.
- A Rust panic (`unwrap`, `expect`) is the `Panic` case of
  `Common.Outcome`.

Asynchronous store actions are split in two. `BeginFetch` runs when the
action is called. `EndFetch` (or `CreateServer`) runs when its request
settles. Other actions may run in between.

Four behaviours of the stores are stated outright, three of them with the
lemma that exhibits them:

- `addMessage` does not deduplicate: it appends a message whose id is
  already present (`MessageStore.AddMessageKeepsDuplicates`).
- A settled fetch makes no channel-identity check and overwrites the list,
  so a message added while it was pending is lost
  (`MessageStore.LiveMessageLostByPendingFetch`).
- A settled channel fetch does not reconcile the current channel, which can
  point outside the new list (`ChannelStore.CurrentChannelCanDangle`).
- `setCurrentChannel` sends no leave or join frame over the socket.

Module map (one module per source file, plus shared helpers):

| module | file |
|---|---|
| `WebSocket` | `frontend/web/src/services/websocket.ts` |
| `MessageStore`, `ChannelStore`, `ServerStore` | `frontend/web/src/store/*.ts` |
| `Toasts` | `frontend/web/src/components/ToastProvider.tsx` |
| `SidebarChannels` | `frontend/web/src/components/SidebarChannels.tsx` |
| `Api` | `frontend/web/src/lib/api.ts` |
| `AuthHandlers`, `AuthUtils` | `backend/auth/src/handlers.rs`, `auth_utils.rs` |
| `AuthServiceHandlers`, `AuthServiceModels` | `backend/auth-service/src/handlers.rs`, `models.rs` |
| `CoreHandlers` | `backend/core/src/handlers.rs` |
| `Cache` | `backend/core-service/src/cache.rs` |
| `Bson` | object-id parsing and rendering used by the services |
| `Common` | Option/Result/Outcome, filter, reverse, find, decimal rendering |

## Model

| member | source | states |
|---|---|---|
| Common.Filter | frontend/web/src/components/SidebarChannels.tsx:26 | `Array.filter`: every kept element passes the predicate and comes from the input; every passing input element is kept |
| Common.Reverse | frontend/web/src/store/messageStore.ts:28 | `Array.reverse`: same length, position i holds the input's element at position n-1-i |
| Common.Find | backend/auth/src/handlers.rs:26-27 | `find_one`: finds something iff some element matches; what it finds is the first matching element |
| Common.DecimalRoundTrip | frontend/web/src/lib/api.ts:27 | the decimal rendering of a status reads back as the same number |
| WebSocket.Encode | frontend/web/src/services/websocket.ts:46-60 | `joinChannel`, `leaveChannel`, `sendMessage` and `sendTyping` send the tags `join_channel`, `leave_channel`, `send_message` and `typing` respectively; each frame decodes back to its request, carries the given channel id, and has content iff it is `send_message` |
| WebSocket.Decode | frontend/web/src/services/websocket.ts:46-60 | only the four helpers' tags read back, each as its own helper's request (`join_channel` as a join, `leave_channel` as a leave, `send_message` as a message, `typing` as typing); the request keeps the frame's channel id, and is `send_message` with its content iff the frame has content |
| WebSocket.DecodeEncode | frontend/web/src/services/websocket.ts:46-60 | every frame that reads back as a request is exactly that request's frame |
| WebSocket.EncodeInjective | frontend/web/src/services/websocket.ts:46-60 | distinct requests give distinct frames |
| WebSocket.ConnectUrlInjective | frontend/web/src/services/websocket.ts:10-11 | under one `WS_URL`, the socket URL determines the token |
| WebSocket.Connect | frontend/web/src/services/websocket.ts:8-11 | always records the token and keeps registry and written frames; throws iff the browser rejects the URL, keeping the old socket; otherwise opens a not-yet-open socket at `${WS_URL}?token=<token>`, `ws://localhost:8080/ws?token=<token>` when `NEXT_PUBLIC_WS_URL` is unset or empty |
| WebSocket.RejectedUrlKeepsOldSocket | frontend/web/src/services/websocket.ts:9-11 | when the new URL is rejected, an open old socket stays open and the helpers still write to it |
| WebSocket.ReadyStateChanged | frontend/web/src/services/websocket.ts:63 | the browser moves only the current socket's `readyState`; nothing else changes |
| WebSocket.Disconnect | frontend/web/src/services/websocket.ts:35-40 | leaves no socket; a no-op when there is none; registry, token and written frames kept |
| WebSocket.DisconnectIdempotent | frontend/web/src/services/websocket.ts:35-40 | disconnecting twice equals disconnecting once |
| WebSocket.OnMessage | frontend/web/src/services/websocket.ts:42-44 | the callback goes at the registry's tail; earlier callbacks unchanged |
| WebSocket.Send | frontend/web/src/services/websocket.ts:62-68 | exactly one frame is written iff a socket exists and is OPEN; otherwise the manager is unchanged |
| WebSocket.Perform | frontend/web/src/services/websocket.ts:46-60 | on an open socket each helper writes exactly its request's frame at the tail; otherwise the manager is unchanged |
| WebSocket.SendAfterDisconnectDropped | frontend/web/src/services/websocket.ts:62-68 | after `disconnect`, every helper leaves the manager as it is |
| WebSocket.HandleInbound | frontend/web/src/services/websocket.ts:17-24 | an unparsable frame invokes nothing; a parsed one invokes the callbacks in registration order, each once, stopping only after a callback that throws; with no throwing callback, all of them |
| WebSocket.RegistryOnlyGrows | frontend/web/src/services/websocket.ts:5-44 | over any run of operations the registry keeps its old entries as a prefix and grows by one per `onMessage`; written frames only grow |
| MessageStore.MessagesEndpointInjective | frontend/web/src/store/messageStore.ts:27 | `/channels/{id}/messages?limit=50` names exactly one channel |
| MessageStore.MessagesEndpoint | frontend/web/src/store/messageStore.ts:27 | `/channels/`, then the channel id verbatim, then `/messages?limit=50` |
| MessageStore.BeginFetch | frontend/web/src/store/messageStore.ts:24-25 | a fetch starts with `loading` true and the messages untouched |
| MessageStore.EndFetch | frontend/web/src/store/messageStore.ts:26-32 | success stores the page reversed; failure keeps the messages; `loading` ends false either way |
| MessageStore.FetchStoresOldestFirst | frontend/web/src/store/messageStore.ts:27-28 | a page ordered newest first is stored oldest first |
| MessageStore.FetchReversesThreeMessages | frontend/web/src/store/messageStore.ts:28 | the page `[m3, m2, m1]` is stored as `[m1, m2, m3]` |
| MessageStore.AddMessage | frontend/web/src/store/messageStore.ts:35-37 | the old list is a prefix of the new one, which is one longer and ends with the message; `loading` kept |
| MessageStore.AddMessageKeepsDuplicates | frontend/web/src/store/messageStore.ts:36 | no deduplication: the count of the message's id rises by one, so a present id ends up at least twice |
| MessageStore.LiveMessageLostByPendingFetch | frontend/web/src/store/messageStore.ts:24-37 | a message added while a fetch is pending is dropped when the fetch succeeds |
| ChannelStore.ChannelsEndpointInjective | frontend/web/src/store/channelStore.ts:29 | `/servers/{id}/channels` names exactly one server |
| ChannelStore.ChannelsEndpoint | frontend/web/src/store/channelStore.ts:29 | `/servers/`, then the server id verbatim, then `/channels` |
| ChannelStore.BeginFetch | frontend/web/src/store/channelStore.ts:26-27 | a fetch starts with `loading` true; channels and current channel untouched |
| ChannelStore.EndFetch | frontend/web/src/store/channelStore.ts:28-34 | success replaces the list wholesale; failure keeps it; `loading` ends false; the current channel never changes |
| ChannelStore.SetCurrentChannel | frontend/web/src/store/channelStore.ts:37-39 | sets only the current channel |
| ChannelStore.CurrentChannelCanDangle | frontend/web/src/store/channelStore.ts:26-39 | after another server's list arrives, the current channel may be absent from the list |
| ServerStore.BeginFetch | frontend/web/src/store/serverStore.ts:26-27 | a fetch starts with `loading` true; servers and current server untouched |
| ServerStore.EndFetch | frontend/web/src/store/serverStore.ts:28-34 | success replaces the servers; failure keeps them; `loading` ends false; the current server never changes |
| ServerStore.SetCurrentServer | frontend/web/src/store/serverStore.ts:37 | sets only the current server |
| ServerStore.CreateServer | frontend/web/src/store/serverStore.ts:39-46 | success appends the returned server at the tail and returns it; failure propagates and changes nothing; current server and `loading` untouched |
| ServerStore.CreationsOnlyAppend | frontend/web/src/store/serverStore.ts:39-46 | over any sequence of settled creations, the servers held before stay as a prefix, one server is added per success, every created server is listed, and current server and `loading` are unchanged |
| Toasts.ShowToast | frontend/web/src/components/ToastProvider.tsx:24-26 | appends `{id, message, type}` at the tail; earlier toasts unchanged |
| Toasts.Dismiss | frontend/web/src/components/ToastProvider.tsx:27-29 | no toast with the id remains; every other toast stays; exactly the toasts with that id are removed |
| Toasts.DismissAbsentIsNoop | frontend/web/src/components/ToastProvider.tsx:53 | dismissing an id no toast carries changes nothing |
| Toasts.DismissIdempotent | frontend/web/src/components/ToastProvider.tsx:53 | dismissing twice equals dismissing once |
| Toasts.DismissKeepsOrder | frontend/web/src/components/ToastProvider.tsx:28 | survivors keep their relative order |
| Toasts.ExpiryUndoesShow | frontend/web/src/components/ToastProvider.tsx:24-30 | a toast's expiry leaves the queue as if it had never been shown, less older toasts that drew the same id |
| Toasts.ExpiryOfFreshToastRestoresQueue | frontend/web/src/components/ToastProvider.tsx:24-30 | with a fresh id, show then expire restores the queue |
| Toasts.DismissCommutes | frontend/web/src/components/ToastProvider.tsx:27-29 | timers firing in either order leave the same queue |
| Toasts.UseToast | frontend/web/src/components/ToastProvider.tsx:66-70 | raises, with its message, iff there is no provider context; otherwise returns it |
| SidebarChannels.SectionsAreExact | frontend/web/src/components/SidebarChannels.tsx:26-27 | the text section holds exactly the `"text"` channels and the voice section exactly the `"voice"` ones; none is in both; other types are in neither |
| SidebarChannels.SectionsKeepOrder | frontend/web/src/components/SidebarChannels.tsx:26-27 | both sections keep the list's order |
| SidebarChannels.SectionsAccountForEveryChannel | frontend/web/src/components/SidebarChannels.tsx:26-27 | text, voice and other channels together account for the whole list |
| SidebarChannels.TextChannels | frontend/web/src/components/SidebarChannels.tsx:26 | exactly the list's `"text"` channels |
| SidebarChannels.VoiceChannels | frontend/web/src/components/SidebarChannels.tsx:27 | exactly the list's `"voice"` channels |
| SidebarChannels.Entries | frontend/web/src/components/SidebarChannels.tsx:39-76 | entries are drawn as the text section, then the voice section, each in order |
| SidebarChannels.Click | frontend/web/src/components/SidebarChannels.tsx:44-72 | a text entry makes its channel current; a voice entry does nothing |
| SidebarChannels.Highlighted | frontend/web/src/components/SidebarChannels.tsx:48-51 | no entry is highlighted without a current channel, and a voice entry never is |
| SidebarChannels.ClickHighlightsSameId | frontend/web/src/components/SidebarChannels.tsx:47-51 | after clicking a text entry, a text entry is highlighted iff it has the clicked id; voice entries never are |
| SidebarChannels.FetchTrigger | frontend/web/src/components/SidebarChannels.tsx:12-16 | channels are fetched iff a current server is set, and for that server's id |
| SidebarChannels.Render | frontend/web/src/components/SidebarChannels.tsx:18-34 | the placeholder iff no current server; otherwise the server's name over the text and voice sections |
| Api.StoredToken | frontend/web/src/lib/api.ts:4-12 | no token without a window or with a missing or empty item; otherwise the token read from the item, and a throw iff that read throws (an item that is not JSON, or the JSON `null`) |
| Api.ApiHeaders | frontend/web/src/lib/api.ts:14-18 | caller headers override; `Content-Type: application/json` by default; a `Bearer` header iff the token is non-empty; nothing else |
| Api.AuthApiHeaders | frontend/web/src/lib/api.ts:36-39 | the caller's headers plus a default `Content-Type`, nothing else |
| Api.AuthorizationOnlyFromApi | frontend/web/src/lib/api.ts:14-39 | `authApi` carries `Authorization` only if its caller passes one; `api`, without caller headers, carries one iff the token is non-empty |
| Api.ApiRequest | frontend/web/src/lib/api.ts:1-23 | fails before sending iff reading the stored token throws; otherwise the URL is `API_BASE` (default `http://localhost:8080`) followed by the endpoint, with the caller's method and body and the merged headers |
| Api.AuthApiRequest | frontend/web/src/lib/api.ts:33-44 | URL `AUTH_BASE` (default `http://localhost:8081`) followed by the endpoint; headers exactly the caller's plus a default `Content-Type`, so `Authorization` only from the caller; the caller's method and body |
| Api.ErrorMessage | frontend/web/src/lib/api.ts:25-28 | never empty; the body when non-empty, else `HTTP ` followed by the status in decimal |
| Api.FallbackMessageNamesStatus | frontend/web/src/lib/api.ts:27 | with an empty body, distinct statuses give distinct messages |
| Api.Settle | frontend/web/src/lib/api.ts:25-30 | a network rejection propagates; a non-2xx status rejects with the error message; a 2xx status resolves with the parsed body, or rejects if it is not JSON |
| AuthUtils.MakeClaims | backend/auth/src/auth_utils.rs:15-25 | `sub` is the user id, `iat` the current second; `exp - iat` equals the expiry and `exp >= iat` unless u64 addition wraps, in which case `exp < iat` |
| AuthUtils.CreateJwt | backend/auth/src/auth_utils.rs:15-32 | panics iff the clock is before the epoch; otherwise returns the encoder's verdict on those claims |
| AuthUtils.HashPassword | backend/auth/src/auth_utils.rs:34-41 | panics iff Argon2 fails on the password and salt; otherwise its PHC string |
| AuthUtils.VerifyPassword | backend/auth/src/auth_utils.rs:43-48 | panics iff the stored hash is malformed; otherwise returns Argon2's boolean |
| AuthHandlers.Register | backend/auth/src/handlers.rs:19-52 | 409 iff an answered lookup finds the username or the email; a failed lookup falls through; a hashing failure then panics with nothing inserted; the new user has no servers, no last-seen time and the password's hash; 201 with exactly id, username and email, or 500 on insert failure |
| AuthHandlers.RegisterKeepsAccountsUnique | backend/auth/src/handlers.rs:25-41 | a registration with an answered lookup keeps usernames and emails pairwise unique |
| AuthHandlers.SequentialRegistrationsKeepAccountsUnique | backend/auth/src/handlers.rs:25-41 | the same for any sequence of such registrations |
| AuthHandlers.LookupFailureAdmitsDuplicate | backend/auth/src/handlers.rs:27 | a failed lookup lets in a second account with the same username and email |
| AuthHandlers.Authenticate | backend/auth/src/handlers.rs:69-84 | for the user found: a malformed hash panics; a password the hash does not verify gives 401; a verified one gives 200 with a one-hour token and the user's id, username and email, or panics on a missing id, a pre-epoch clock or an encoder error |
| AuthHandlers.Login | backend/auth/src/handlers.rs:60-88 | panics without `JWT_SECRET`; an unknown email or a failed lookup gives 401 "Invalid credentials"; for the first stored user with the email, a malformed hash panics, a wrong password gives 401, and a verified one gives 200 with its one-hour token, id, username and email (or panics on a missing id, pre-epoch clock or encoder error); 200 happens only that way |
| AuthHandlers.LoginFailuresIndistinguishable | backend/auth/src/handlers.rs:67-87 | a failed lookup, an unknown email and a wrong password for the first user under the email, when that user's stored hash is well-formed, all give the same 401 response |
| AuthHandlers.FreshAccountLogsIn | backend/auth/src/handlers.rs:31-84 | after a registration, logging in with the same email and password reaches the new account: panic if the stored hash is malformed, or if it verifies and token minting fails; 401 iff the hash is well-formed and Argon2 rejects the password; 200 when it verifies and a token is minted |
| AuthServiceModels.ValidateRegister | backend/auth-service/src/models.rs:15-23 | valid iff username has 3 to 30 characters, email passes the email rule, and password has 8 to 128 characters; each failed rule reports its own message |
| AuthServiceModels.ValidateLogin | backend/auth-service/src/models.rs:25-31 | valid iff the email passes the email rule and the password is non-empty; each failed rule reports its own message |
| AuthServiceModels.EmailRuleShared | backend/auth-service/src/models.rs:19-27 | registration and login reject the same email addresses |
| AuthServiceHandlers.Register | backend/auth-service/src/handlers.rs:6-36 | 500 on a failed lookup; 409 iff the email is taken; 500 on a failed insert; otherwise the fixed success message and one new user |
| AuthServiceHandlers.RegisterKeepsEmailsUnique | backend/auth-service/src/handlers.rs:13-33 | every registration keeps emails unique |
| AuthServiceHandlers.SequentialRegistrationsKeepEmailsUnique | backend/auth-service/src/handlers.rs:13-33 | emails stay unique over any sequence of registrations |
| AuthServiceHandlers.DuplicateUsernameAccepted | backend/auth-service/src/handlers.rs:13-20 | a taken username with a new email is accepted |
| AuthServiceHandlers.Login | backend/auth-service/src/handlers.rs:38-65 | 500 only on a failed lookup; 401 for an unknown email or a wrong password for the first user under it; success for a verified password, with its token, id, username and email, panicking if the user has no id |
| AuthServiceHandlers.WrongPasswordUnauthorized | backend/auth-service/src/handlers.rs:50-52 | a wrong password for the first user under the email gives 401 |
| Bson.ParseStr | backend/core/src/handlers.rs:22 | parses iff the string is 24 hex digits of either case; the id is canonical |
| Bson.ParseToHex | backend/core/src/handlers.rs:51-52 | rendering an id and parsing it back gives the id |
| Bson.ToHexParse | backend/core/src/handlers.rs:22 | a parsed id renders as the input with its letters lowered |
| CoreHandlers.NewServer | backend/core/src/handlers.rs:24-47 | one `@everyone` role with permissions 0x1, colour `#ffffff` and position 0; the owner is the only member and holds no role; no channels, no icon; the role id, the member's `joined_at` and `created_at` are the handler's generated id and two clock readings |
| CoreHandlers.CreateServer | backend/core/src/handlers.rs:17-56 | panics, inserting nothing, iff the owner id does not parse; 201 `{"id": hex}` with the new record at the tail, or 500 with nothing changed |
| CoreHandlers.OwnerStoredCanonically | backend/core/src/handlers.rs:22 | the stored owner renders to a string that parses back to it, and equals a lower-case input |
| Cache.KeysInjective | backend/core-service/src/cache.rs:23-75 | each key family determines its id |
| Cache.KeyFamiliesDisjoint | backend/core-service/src/cache.rs:23-75 | `server:`, `channels:` and `session:` keys never coincide |
| Cache.SetEx | backend/core-service/src/cache.rs:25 | fails iff Redis is down or the expiry is zero; otherwise writes exactly the one key |
| Cache.Get | backend/core-service/src/cache.rs:33 | errs iff Redis is down; finds a value iff the key is stored |
| Cache.Del | backend/core-service/src/cache.rs:60 | removes exactly the one key; errs iff Redis is down |
| Cache.GetDecoded | backend/core-service/src/cache.rs:33-34 | a missing key or an undecodable value reads as `Ok(None)`; only a down Redis errs |
| Cache.CacheServer | backend/core-service/src/cache.rs:17-26 | errs iff Redis is down or the expiry is zero; afterwards the server's key reads as the encoded data and every other key reads as before |
| Cache.GetServer | backend/core-service/src/cache.rs:28-35 | errs iff Redis is down; an absent key gives `Ok(None)`; a present one gives its decoding, `None` if it does not decode |
| Cache.CacheChannels | backend/core-service/src/cache.rs:38-47 | errs iff Redis is down or the expiry is zero; afterwards the `channels:` key reads as the encoded list and every other key reads as before |
| Cache.GetChannels | backend/core-service/src/cache.rs:49-56 | errs iff Redis is down; an absent key gives `Ok(None)`; a present one gives its decoding |
| Cache.Invalidate | backend/core-service/src/cache.rs:59-61 | errs iff Redis is down; afterwards the key spelled `pattern` reads as absent and every other key as before |
| Cache.CacheSession | backend/core-service/src/cache.rs:64-72 | errs iff Redis is down or the expiry is zero; afterwards the `session:` key reads as the session verbatim and every other key as before |
| Cache.GetSession | backend/core-service/src/cache.rs:74-77 | errs iff Redis is down; the stored string under the `session:` key, if any |
| Cache.ServerRoundTrip | backend/core-service/src/cache.rs:17-35 | `get_server` after `cache_server` returns the data when decoding inverts encoding, and `Ok(None)` when it does not decode |
| Cache.ChannelsRoundTrip | backend/core-service/src/cache.rs:38-56 | `get_channels` after `cache_channels` returns the channels |
| Cache.SessionRoundTrip | backend/core-service/src/cache.rs:64-77 | `get_session` after `cache_session` returns the session verbatim |
| Cache.CachingServerLeavesOtherFamilies | backend/core-service/src/cache.rs:23-25 | caching a server changes no channel list and no session |
| Cache.InvalidateServer | backend/core-service/src/cache.rs:59-61 | after invalidating a server's key, the server reads as absent |
| Cache.InvalidateTakesPatternLiterally | backend/core-service/src/cache.rs:59-61 | `server:*` deletes only the key spelled that way, not other server entries |

## Left out

- View-only React code is not modelled: pages, layout, skeletons, member list, voice footer, server sidebar, markup, styling and animation.
- `ChatPanel.tsx` is not modelled. It reads `messages`, `sendMessage` and `addMessage` from the channel store, which defines none of them.
- `useAuth.ts` is not modelled. It reads `data.token`, but the auth service answers with `access_token`.
- `encryption.ts` is not modelled. It wraps a foreign WASM library and `localStorage`.
- The server-side WebSocket relays and the Redis pub/sub are not modelled. They are concurrent tasks.
- The `main.rs` and `db.rs` wiring files are not modelled.
- `JSON.stringify` of outbound frames is not modelled. The written log holds the frame objects themselves.
- `JSON.parse`, serde, Argon2, JWT encoding, random ids and `setTimeout` are opaque parameters. Toast expiry is a `Dismiss` issued when the timer fires.
- The socket's `close()` call and its close handshake are not modelled; `Disconnect` only drops the reference.
- A socket replaced by a second `connect` is not closed in the code. Frames it still delivers are not modelled separately.
- Console logging is not modelled, including the warning on a dropped send.
- The stores assume a JSON array reply. A non-array body makes `data.reverse()` throw, and the message store then takes its failure path; that case is not modelled separately.
- `Api.ApiHeaders`: caller headers given as a `Headers` instance or as an array of pairs are not modelled. Spreading a `Headers` instance contributes no entries. Spreading an array contributes entries named by index (`"0"`, `"1"`, …), each holding a pair. `fetch`'s case-insensitive merging of header names is also not modelled.
- The request bodies the stores send (`JSON.stringify({ name })`) are not modelled.
- Redis TTL expiry over time is not modelled. Non-UTF-8 values and over-large expiries are not modelled either.
- `serde_json::to_string(..).unwrap()` in the cache is not modelled; encoding is total.
- Registrations are sequential. The handlers' check-then-insert is not atomic, and no race-freedom is claimed.
- `AuthUtils.MakeClaims`: models the release-build wrap-around of `now + expiry_seconds` and assumes `usize` is 64 bits wide. A debug build panics on overflow instead.
- The `auth-service` crate does not compile as written. `User` lacks `created_at`, `LoginResponse` is undefined, `db::` is undeclared, and `validate()` is never called. The handlers are modelled with the fields they set, with `AuthResponse` standing in for `LoginResponse`, and without validation.
- The `auth-service` crate's own `auth` module (hashing, verification, token minting) is not part of this model. Its functions are parameters.
- `backend/common/src/models.rs` and `backend/core-service/src/models.rs` only shape the datatypes.

=== FILE: api.dfy ===
/** The client's two REST helpers: `api` (the chat API, with the stored
    bearer token) and `authApi` (the authentication service, never with a
    token). Each builds one `fetch` request, and settles with the parsed
    JSON body on a 2xx status or with an error message otherwise.

    `fetch` itself, `localStorage`, and `JSON.parse` are inputs: the stored
    item and the network's reply are parameters, and reading the token out
    of the stored item is a parameter `readToken`. Headers are plain objects
    with case-sensitive keys, modelled as maps. */
module Api {
  import opened Common

  /** The fallback for `NEXT_PUBLIC_API_URL`. */
  const DefaultApiBase: string := "http://localhost:8080"

  /** The fallback for `NEXT_PUBLIC_AUTH_URL`. */
  const DefaultAuthBase: string := "http://localhost:8081"

  const ContentType: string := "Content-Type"
  const Authorization: string := "Authorization"
  const Json: string := "application/json"

  type Headers = map<string, string>

  /** The caller's `RequestInit`: `verb` is its `method`; `headers` a plain object. */
  datatype Options = Options(verb: Option<string>, headers: Headers, body: Option<string>)

  /** The request handed to `fetch`. */
  datatype FetchRequest = FetchRequest(url: string, verb: Option<string>, headers: Headers, body: Option<string>)

  /** What `localStorage` holds under `auth-storage`, as seen by `api`:
      no `window` at all (server-side rendering), or the item, if any. */
  datatype Storage = NoWindow | Item(raw: Option<string>)

  datatype ApiError =
    | StorageUnreadable(reason: string)  // reading the token out of the stored item threw
    | NetworkFailure(reason: string)     // `fetch` rejected
    | HttpError(message: string)         // non-2xx status
    | BodyNotJson                        // `res.json()` rejected

  /** What the network answers: a rejection or a response whose body is
      available both as text and, if it is JSON, parsed. */
  datatype Reply<J> = Rejected(reason: string) | Response(status: nat, text: string, json: Option<J>)

  /** The token `api` finds: none without a window, without the item or with
      an empty item; otherwise whatever reading `JSON.parse(item).state?.token`
      yields, and a throw exactly when that reading throws (an item that is
      not JSON, or the JSON `null`, whose `state` cannot be read). */
  function StoredToken(storage: Storage, readToken: string -> Result<Option<string>, string>): (r: Result<Option<string>, ApiError>)
    ensures storage.NoWindow? ==> r == Ok(None)
    ensures storage.Item? && (storage.raw.None? || storage.raw.value == "") ==> r == Ok(None)
    ensures r.Err? <==> storage.Item? && storage.raw.Some? && storage.raw.value != "" && readToken(storage.raw.value).Err?

    ensures storage.Item? && storage.raw.Some? && storage.raw.value != "" && readToken(storage.raw.value).Ok? ==>
      r == Ok(readToken(storage.raw.value).value)
  {
    match storage
    case NoWindow => Ok(None)
    case Item(raw) =>
      if raw.None? || raw.value == "" then Ok(None)
      else
        match readToken(raw.value)
        case Err(e) => Err(StorageUnreadable(e))
        case Ok(t) => Ok(t)
  }

  /** `token && ...`: the bearer header is added only for a non-empty token. */
  predicate HasBearer(token: Option<string>)
  {
    token.Some? && token.value != ""
  }

  /** `{ "Content-Type": "application/json", ...(token && { Authorization }), ...options.headers }`:
      later spreads win, so the caller's headers override both defaults. */
  function ApiHeaders(token: Option<string>, caller: Headers): (h: Headers)
    ensures forall k :: k in caller ==> k in h && h[k] == caller[k]
    ensures ContentType !in caller ==> ContentType in h && h[ContentType] == Json
    ensures Authorization !in caller ==> (Authorization in h <==> HasBearer(token))
    ensures Authorization !in caller && HasBearer(token) ==> h[Authorization] == "Bearer " + token.value
    ensures forall k :: k in h ==> k in caller || k == ContentType || (k == Authorization && HasBearer(token))
  {
    var defaults := map[ContentType := Json];
    var withToken := if HasBearer(token) then defaults[Authorization := "Bearer " + token.value] else defaults;
    withToken + caller
  }

  /** `authApi`'s headers: the JSON content type, overridable by the caller,
      and nothing else. */
  function AuthApiHeaders(caller: Headers): (h: Headers)
    ensures forall k :: k in caller ==> k in h && h[k] == caller[k]
    ensures ContentType !in caller ==> ContentType in h && h[ContentType] == Json
    ensures h.Keys == caller.Keys + {ContentType}
  {
    map[ContentType := Json] + caller
  }

  /** `authApi` attaches an `Authorization` header only if its caller does,
      whatever token is stored; `api` without caller headers attaches one
      exactly when the stored token is non-empty. */
  lemma AuthorizationOnlyFromApi(token: Option<string>, caller: Headers)
    ensures Authorization in AuthApiHeaders(caller) <==> Authorization in caller
    ensures Authorization in ApiHeaders(token, map[]) <==> HasBearer(token)
  {
  }

  /** The request `api(endpoint, options)` sends, or the error it throws
      before sending when reading the stored token throws. */
  function ApiRequest(
    env: Option<string>,
    storage: Storage,
    readToken: string -> Result<Option<string>, string>,
    endpoint: string,
    options: Options): (r: Result<FetchRequest, ApiError>)
    ensures r.Err? <==> StoredToken(storage, readToken).Err?
    ensures r.Ok? ==>
      && r.value.url == EnvOr(env, DefaultApiBase) + endpoint
      && r.value.verb == options.verb
      && r.value.body == options.body
      && r.value.headers == ApiHeaders(StoredToken(storage, readToken).value, options.headers)
  {
    match StoredToken(storage, readToken)
    case Err(e) => Err(e)
    case Ok(token) =>
      Ok(FetchRequest(EnvOr(env, DefaultApiBase) + endpoint, options.verb, ApiHeaders(token, options.headers), options.body))
  }

  /** The request `authApi(endpoint, options)` sends. */
  function AuthApiRequest(env: Option<string>, endpoint: string, options: Options): (r: FetchRequest)
    ensures Authorization in r.headers <==> Authorization in options.headers
    ensures r.url == EnvOr(env, DefaultAuthBase) + endpoint
    ensures ContentType in r.headers
    ensures r.headers[ContentType] == (if ContentType in options.headers then options.headers[ContentType] else Json)
    ensures r.verb == options.verb && r.body == options.body
    ensures r.headers == AuthApiHeaders(options.headers)
  {
    FetchRequest(EnvOr(env, DefaultAuthBase) + endpoint, options.verb, AuthApiHeaders(options.headers), options.body)
  }

  /** `res.ok`. */
  predicate IsSuccess(status: nat)
  {
    200 <= status <= 299
  }

  /** `error || \`HTTP ${res.status}\``. */
  function ErrorMessage(status: nat, text: string): (msg: string)
    ensures msg != ""
    ensures text != "" ==> msg == text
    ensures text == "" ==> |msg| > 5 && msg[..5] == "HTTP " && msg[5..] == Decimal(status)
  {
    if text != "" then text else "HTTP " + Decimal(status)
  }

  /** An empty error body still tells statuses apart. */
  lemma FallbackMessageNamesStatus(s1: nat, s2: nat)
    ensures ErrorMessage(s1, "") == ErrorMessage(s2, "") ==> s1 == s2
  {
    if ErrorMessage(s1, "") == ErrorMessage(s2, "") {
      PrefixCancel("HTTP ", Decimal(s1), Decimal(s2));
      DecimalInjective(s1, s2);
    }
  }

  /** How `api` and `authApi` settle once `fetch` has answered. */
  function Settle<J>(reply: Reply<J>): (r: Result<J, ApiError>)
    ensures reply.Rejected? ==> r == Err(NetworkFailure(reply.reason))
    ensures reply.Response? && !IsSuccess(reply.status) ==>
      r.Err? && r.error.HttpError? && r.error.message != ""
      && r.error.message == ErrorMessage(reply.status, reply.text)
    ensures reply.Response? && IsSuccess(reply.status) ==>
      (r.Ok? <==> reply.json.Some?) && (r.Ok? ==> r.value == reply.json.value)
  {
    match reply
    case Rejected(reason) => Err(NetworkFailure(reason))
    case Response(status, text, json) =>
      if !IsSuccess(status) then Err(HttpError(ErrorMessage(status, text)))
      else if json.None? then Err(BodyNotJson)
      else Ok(json.value)
  }
}

=== FILE: auth_handlers.dfy ===
/** The `auth` service's two handlers over an abstract `users` collection.

    The collection is a sequence of stored users; `find_one` returns the
    first match. Whether a lookup or an insert fails, the id the database
    assigns, the salt, the clock, Argon2 and the JWT encoder are inputs.
    Registrations are modelled one at a time: the check-then-insert is not
    atomic in the service, and nothing here claims it is. */
module AuthHandlers {
  import opened Common
  import opened Bson
  import AuthUtils

  /** The stored `User` document. Times are seconds. */
  datatype User = User(
    id: Option<ObjectId>,
    username: string,
    email: string,
    passwordHash: string,
    servers: seq<ObjectId>,
    createdAt: int,
    lastSeen: Option<int>)

  datatype RegisterRequest = RegisterRequest(username: string, email: string, password: string)

  datatype LoginRequest = LoginRequest(email: string, password: string)

  datatype Body =
    | Text(text: string)
    | UserJson(id: string, username: string, email: string)
    | LoginJson(accessToken: string, id: string, username: string, email: string)

  datatype Response = Response(status: nat, body: Body)

  const ConflictResponse: Response := Response(409, Text("Username or email already exists"))
  const CreateFailedResponse: Response := Response(500, Text("Failed to create user"))
  const InvalidCredentials: Response := Response(401, Text("Invalid credentials"))

  /** Token lifetime handed to `create_jwt` by `login`, in seconds. */
  const TokenLifetime: nat := 3600

  /** The `$or` filter of `register`. */
  predicate ClashesWith(req: RegisterRequest, u: User)
  {
    u.username == req.username || u.email == req.email
  }

  predicate HasEmail(email: string, u: User)
  {
    u.email == email
  }

  // ---------------------------------------------------------------------------
  // register
  // ---------------------------------------------------------------------------

  datatype Registered = Registered(users: seq<User>, response: Response)

  /** No user stands in the way of a registration: either the lookup failed,
      or no stored user has the requested username or email. */
  ghost predicate Unobstructed(users: seq<User>, req: RegisterRequest, lookup: Lookup)
  {
    lookup.LookupFailed? || forall i :: 0 <= i < |users| ==> !ClashesWith(req, users[i])
  }

  /** `register`: 409 when the lookup finds a user with the same username or
      email; a failed lookup does not stop the handler. Otherwise the
      password is hashed, a hashing error panicking before anything is
      inserted, and a new user with no servers, never seen, is inserted:
      201 with its id, username and email, or 500 when the insert fails. */
  function Register(
    users: seq<User>,
    req: RegisterRequest,
    lookup: Lookup,
    insert: Insert,
    salt: string,
    now: int,
    argon2: (string, string) -> Result<string, string>): (o: Outcome<Registered>)
    ensures lookup.Answered? && (exists i :: 0 <= i < |users| && ClashesWith(req, users[i])) ==>
      o == Done(Registered(users, ConflictResponse))
    ensures o.Panic? <==> Unobstructed(users, req, lookup) && argon2(req.password, salt).Err?
    ensures Unobstructed(users, req, lookup) && o.Done? ==>
      if insert.InsertFailed? then o.value == Registered(users, CreateFailedResponse)
      else
        && o.value.response == Response(201, UserJson(ToHex(insert.id), req.username, req.email))
        && |o.value.users| == |users| + 1
        && o.value.users[..|users|] == users
        && var u := o.value.users[|users|];
           && u.id == Some(insert.id) && u.username == req.username && u.email == req.email
           && u.passwordHash == argon2(req.password, salt).value
           && u.servers == [] && u.lastSeen.None?
  {
    if lookup.Answered? && Find(u => ClashesWith(req, u), users).Some? then
      Done(Registered(users, ConflictResponse))
    else
      match AuthUtils.HashPassword(req.password, salt, argon2)
      case Panic(msg) => Panic(msg)
      case Done(hash) =>
        var newUser := User(None, req.username, req.email, hash, [], now, None);
        match insert
        case InsertFailed => Done(Registered(users, CreateFailedResponse))
        case Inserted(id) =>
          Done(Registered(users + [newUser.(id := Some(id))], Response(201, UserJson(ToHex(id), req.username, req.email))))
  }

  /** The stored users after a registration: a panicking handler has
      inserted nothing. */
  function UsersAfter(users: seq<User>, o: Outcome<Registered>): (stored: seq<User>)
  {
    if o.Panic? then users else o.value.users
  }

  /** No two stored users share a username or an email. */
  ghost predicate UniqueAccounts(users: seq<User>)
  {
    forall i, j :: 0 <= i < j < |users| ==>
      users[i].username != users[j].username && users[i].email != users[j].email
  }

  /** A registration whose lookup answered keeps usernames and emails unique. */
  lemma RegisterKeepsAccountsUnique(
    users: seq<User>, req: RegisterRequest, insert: Insert, salt: string, now: int,
    argon2: (string, string) -> Result<string, string>)
    requires UniqueAccounts(users)
    ensures UniqueAccounts(UsersAfter(users, Register(users, req, Answered, insert, salt, now, argon2)))
  {
    var r := UsersAfter(users, Register(users, req, Answered, insert, salt, now, argon2));
    if |r| != |users| {
      forall i, j | 0 <= i < j < |r|
        ensures r[i].username != r[j].username && r[i].email != r[j].email
      {
        if j == |users| {
          assert r[i] == users[i];
          assert !ClashesWith(req, users[i]);
        } else {
          assert r[i] == users[i] && r[j] == users[j];
        }
      }
    }
  }

  /** One registration attempt with the effects it met. */
  datatype Attempt = Attempt(req: RegisterRequest, lookup: Lookup, insert: Insert, salt: string, now: int)

  /** Attempts handled one after another. */
  function RegisterAll(users: seq<User>, attempts: seq<Attempt>, argon2: (string, string) -> Result<string, string>): (stored: seq<User>)
    decreases |attempts|
  {
    if |attempts| == 0 then users
    else
      var a := attempts[0];
      RegisterAll(UsersAfter(users, Register(users, a.req, a.lookup, a.insert, a.salt, a.now, argon2)), attempts[1..], argon2)
  }

  /** Under sequential registrations whose lookups all answered, usernames
      and emails stay pairwise unique. */
  lemma {:induction false} SequentialRegistrationsKeepAccountsUnique(
    users: seq<User>, attempts: seq<Attempt>, argon2: (string, string) -> Result<string, string>)
    requires UniqueAccounts(users)
    requires forall k :: 0 <= k < |attempts| ==> attempts[k].lookup.Answered?
    ensures UniqueAccounts(RegisterAll(users, attempts, argon2))
    decreases |attempts|
  {
    if |attempts| > 0 {
      var a := attempts[0];
      RegisterKeepsAccountsUnique(users, a.req, a.insert, a.salt, a.now, argon2);
      SequentialRegistrationsKeepAccountsUnique(
        UsersAfter(users, Register(users, a.req, a.lookup, a.insert, a.salt, a.now, argon2)), attempts[1..], argon2);
    }
  }

  /** A failed lookup lets a second account with the same username and email in. */
  lemma LookupFailureAdmitsDuplicate(
    existing: User, id: ObjectId, salt: string, now: int, argon2: (string, string) -> Result<string, string>)
    requires argon2("", salt).Ok?
    ensures var req := RegisterRequest(existing.username, existing.email, "");
      !UniqueAccounts(UsersAfter([existing], Register([existing], req, LookupFailed, Inserted(id), salt, now, argon2)))
  {
    var req := RegisterRequest(existing.username, existing.email, "");
    var r := UsersAfter([existing], Register([existing], req, LookupFailed, Inserted(id), salt, now, argon2));
    assert r[0].username == r[1].username;
  }

  // ---------------------------------------------------------------------------
  // login
  // ---------------------------------------------------------------------------

  /** `users[k]` is the user `find_one` returns for `email`: the first one
      stored under it. */
  ghost predicate FirstWithEmail(users: seq<User>, email: string, k: int)
  {
    && 0 <= k < |users|
    && users[k].email == email
    && forall j :: 0 <= j < k ==> users[j].email != email
  }

  /** The token `login` mints for `user` at `clock` under `key`, if the
      encoder succeeds. */
  function TokenFor(user: User, key: string, clock: nat, encode: (AuthUtils.Claims, string) -> Result<string, string>): (token: Result<string, string>)
    requires user.id.Some? && clock < AuthUtils.U64Modulus
  {
    encode(AuthUtils.MakeClaims(ToHex(user.id.value), clock, TokenLifetime), key)
  }

  /** What `login` answers once `find_one` returned `user`: a malformed
      stored hash panics, a password the hash does not verify answers 401,
      and a verified one answers 200 with a one-hour token, unless the user
      has no id, the clock is before the epoch or the encoder fails, all of
      which panic. */
  function Authenticate(
    user: User,
    password: string,
    key: string,
    clock: int,
    wellFormed: string -> bool,
    argon2Verify: (string, string) -> bool,
    encode: (AuthUtils.Claims, string) -> Result<string, string>): (o: Outcome<Response>)
    requires clock < AuthUtils.U64Modulus
    ensures !wellFormed(user.passwordHash) ==> o.Panic?
    ensures wellFormed(user.passwordHash) && !argon2Verify(password, user.passwordHash) ==> o == Done(InvalidCredentials)
    ensures wellFormed(user.passwordHash) && argon2Verify(password, user.passwordHash) ==>
      if user.id.None? || clock < 0 || TokenFor(user, key, clock, encode).Err? then o.Panic?
      else o == Done(Response(200, LoginJson(
        TokenFor(user, key, clock, encode).value, ToHex(user.id.value), user.username, user.email)))
  {
    match AuthUtils.VerifyPassword(password, user.passwordHash, wellFormed, argon2Verify)
    case Panic(msg) => Panic(msg)
    case Done(false) => Done(InvalidCredentials)
    case Done(true) =>
      match user.id
      case None => Panic("called `Option::unwrap()` on a `None` value")
      case Some(oid) =>
        var userId := ToHex(oid);
        match AuthUtils.CreateJwt(userId, key, TokenLifetime, clock, encode)
        case Panic(msg) => Panic(msg)
        case Done(Err(_)) => Panic("called `Result::unwrap()` on an `Err` value")
        case Done(Ok(token)) => Done(Response(200, LoginJson(token, userId, user.username, user.email)))
  }

  /** `login`: panics without `JWT_SECRET`; looks the email up; an unknown
      email, a failed lookup and a wrong password all answer 401 "Invalid
      credentials". A match answers 200 with a one-hour token for the user's
      id and the user's id, username and email. A malformed stored hash, a
      user without id, a clock before the epoch and an encoder error panic. */
  function Login(
    users: seq<User>,
    req: LoginRequest,
    secret: Option<string>,
    lookup: Lookup,
    clock: int,
    wellFormed: string -> bool,
    argon2Verify: (string, string) -> bool,
    encode: (AuthUtils.Claims, string) -> Result<string, string>): (o: Outcome<Response>)
    requires clock < AuthUtils.U64Modulus
    ensures secret.None? ==> o.Panic?
    ensures secret.Some? && (lookup.LookupFailed? || forall i :: 0 <= i < |users| ==> users[i].email != req.email) ==>
      o == Done(InvalidCredentials)
    ensures o.Done? ==> o.value == InvalidCredentials || o.value.status == 200
    ensures secret.Some? && lookup.Answered? ==>
      forall k :: FirstWithEmail(users, req.email, k) ==>
        var user := users[k];
        && (!wellFormed(user.passwordHash) ==> o.Panic?)
        && (wellFormed(user.passwordHash) && !argon2Verify(req.password, user.passwordHash) ==>
              o == Done(InvalidCredentials))
        && (wellFormed(user.passwordHash) && argon2Verify(req.password, user.passwordHash) ==>
              if user.id.None? || clock < 0 || TokenFor(user, secret.value, clock, encode).Err? then o.Panic?
              else o == Done(Response(200, LoginJson(
                TokenFor(user, secret.value, clock, encode).value, ToHex(user.id.value), user.username, user.email))))
    ensures o.Done? && o.value.status == 200 ==>
      && secret.Some? && lookup.Answered? && clock >= 0
      && exists i :: FirstWithEmail(users, req.email, i)
                     && users[i].id.Some?
                     && argon2Verify(req.password, users[i].passwordHash)
                     && TokenFor(users[i], secret.value, clock, encode).Ok?
                     && o.value.body == LoginJson(
                          TokenFor(users[i], secret.value, clock, encode).value,
                          ToHex(users[i].id.value), users[i].username, users[i].email)
  {
    match secret
    case None => Panic("JWT_SECRET must be set")
    case Some(key) =>
      var found := if lookup.Answered? then Find(u => HasEmail(req.email, u), users) else None;
      match found
      case None => Done(InvalidCredentials)
      case Some(user) => Authenticate(user, req.password, key, clock, wellFormed, argon2Verify, encode)
  }

  /** The three ways of failing to log in answer identically: a failed
      lookup, an unknown email, and a known email whose first stored user's
      hash does not verify the password. */
  lemma LoginFailuresIndistinguishable(
    users: seq<User>,
    req: LoginRequest,
    key: string,
    clock: int,
    wellFormed: string -> bool,
    argon2Verify: (string, string) -> bool,
    encode: (AuthUtils.Claims, string) -> Result<string, string>)
    requires clock < AuthUtils.U64Modulus
    ensures Login(users, req, Some(key), LookupFailed, clock, wellFormed, argon2Verify, encode) == Done(InvalidCredentials)
    ensures (forall i :: 0 <= i < |users| ==> users[i].email != req.email) ==>
      Login(users, req, Some(key), Answered, clock, wellFormed, argon2Verify, encode) == Done(InvalidCredentials)
    ensures forall k :: (&& FirstWithEmail(users, req.email, k)
                         && wellFormed(users[k].passwordHash) && !argon2Verify(req.password, users[k].passwordHash)) ==>
      Login(users, req, Some(key), Answered, clock, wellFormed, argon2Verify, encode) == Done(InvalidCredentials)
  {
  }

  /** A freshly registered account can log in with its password exactly when
      Argon2 verifies the password against the hash it stored: its email was
      free, so `find_one` returns the new user. */
  lemma FreshAccountLogsIn(
    users: seq<User>,
    req: RegisterRequest,
    id: ObjectId,
    salt: string,
    now: int,
    argon2: (string, string) -> Result<string, string>,
    key: string,
    clock: nat,
    wellFormed: string -> bool,
    argon2Verify: (string, string) -> bool,
    encode: (AuthUtils.Claims, string) -> Result<string, string>)
    requires clock < AuthUtils.U64Modulus
    requires forall i :: 0 <= i < |users| ==> !ClashesWith(req, users[i])
    requires argon2(req.password, salt).Ok?
    ensures var stored := UsersAfter(users, Register(users, req, Answered, Inserted(id), salt, now, argon2));
      var hash := argon2(req.password, salt).value;
      var o := Login(stored, LoginRequest(req.email, req.password), Some(key), Answered, clock, wellFormed, argon2Verify, encode);
      && (!wellFormed(hash) ==> o.Panic?)
      && (o == Done(InvalidCredentials) <==> wellFormed(hash) && !argon2Verify(req.password, hash))
      && (wellFormed(hash) && argon2Verify(req.password, hash) && TokenFor(stored[|users|], key, clock, encode).Err? ==> o.Panic?)
      && (wellFormed(hash) && argon2Verify(req.password, hash) && TokenFor(stored[|users|], key, clock, encode).Ok? ==>
            o.Done? && o.value.status == 200)
  {
    var stored := UsersAfter(users, Register(users, req, Answered, Inserted(id), salt, now, argon2));
    assert stored[|users|].email == req.email;
    assert FirstWithEmail(stored, req.email, |users|) by {
      forall j | 0 <= j < |users|
        ensures stored[j].email != req.email
      {
        assert stored[j] == users[j];
        assert !ClashesWith(req, users[j]);
      }
    }
  }
}

=== FILE: auth_service_handlers.dfy ===
/** The `auth-service` handlers, a second registration and login service
    with different rules from `auth`: the conflict check is on e-mail only,
    every database error is a 500, and errors are bare status codes.

    The crate's own `auth` module (hashing, verification, token minting) is
    not part of this model: its three functions are passed in. The handler
    builds a `User` without the `created_at` field its type declares, and
    never calls `validate()`; the model keeps the fields the handler sets
    and applies no validation. */
module AuthServiceHandlers {
  import opened Common
  import opened Bson
  import opened AuthServiceModels

  /** The fields of a stored user that the handlers set or read. */
  datatype User = User(id: Option<ObjectId>, username: string, email: string, passwordHash: string)

  const Conflict: nat := 409
  const Unauthorized: nat := 401
  const InternalError: nat := 500

  const RegisteredMessage: string := "User registered successfully"

  predicate HasEmail(email: string, u: User)
  {
    u.email == email
  }

  datatype Registered = Registered(users: seq<User>, result: Result<string, nat>)

  /** `register`: 500 on a failed lookup, 409 when the e-mail is taken, 500
      on a failed insert, else the fixed success message. A taken username
      is no obstacle. */
  function Register(
    users: seq<User>,
    req: RegisterRequest,
    lookup: Lookup,
    insert: Insert,
    hash: string -> string): (r: Registered)
    ensures lookup.LookupFailed? ==> r == Registered(users, Err(InternalError))
    ensures lookup.Answered? && (exists i :: 0 <= i < |users| && users[i].email == req.email) ==>
      r == Registered(users, Err(Conflict))
    ensures lookup.Answered? && (forall i :: 0 <= i < |users| ==> users[i].email != req.email) ==>
      if insert.InsertFailed? then r == Registered(users, Err(InternalError))
      else
        && r.result == Ok(RegisteredMessage)
        && r.users == users + [User(Some(insert.id), req.username, req.email, hash(req.password))]
    ensures r.result.Ok? <==> |r.users| == |users| + 1
  {
    if lookup.LookupFailed? then Registered(users, Err(InternalError))
    else if Find(u => HasEmail(req.email, u), users).Some? then Registered(users, Err(Conflict))
    else
      match insert
      case InsertFailed => Registered(users, Err(InternalError))
      case Inserted(id) =>
        Registered(users + [User(Some(id), req.username, req.email, hash(req.password))], Ok(RegisteredMessage))
  }

  /** No two stored users share an e-mail. */
  ghost predicate UniqueEmails(users: seq<User>)
  {
    forall i, j :: 0 <= i < j < |users| ==> users[i].email != users[j].email
  }

  /** Every registration keeps e-mails unique. */
  lemma RegisterKeepsEmailsUnique(users: seq<User>, req: RegisterRequest, lookup: Lookup, insert: Insert, hash: string -> string)
    requires UniqueEmails(users)
    ensures UniqueEmails(Register(users, req, lookup, insert, hash).users)
  {
    var r := Register(users, req, lookup, insert, hash);
    if |r.users| != |users| {
      forall i, j | 0 <= i < j < |r.users|
        ensures r.users[i].email != r.users[j].email
      {
        assert r.users[i] == users[i];
        if j < |users| {
          assert r.users[j] == users[j];
        }
      }
    }
  }

  /** One registration attempt with the effects it met. */
  datatype Attempt = Attempt(req: RegisterRequest, lookup: Lookup, insert: Insert)

  function RegisterAll(users: seq<User>, attempts: seq<Attempt>, hash: string -> string): (stored: seq<User>)
    decreases |attempts|
  {
    if |attempts| == 0 then users
    else
      var a := attempts[0];
      RegisterAll(Register(users, a.req, a.lookup, a.insert, hash).users, attempts[1..], hash)
  }

  /** Under any sequence of registrations, e-mails stay unique. */
  lemma {:induction false} SequentialRegistrationsKeepEmailsUnique(users: seq<User>, attempts: seq<Attempt>, hash: string -> string)
    requires UniqueEmails(users)
    ensures UniqueEmails(RegisterAll(users, attempts, hash))
    decreases |attempts|
  {
    if |attempts| > 0 {
      var a := attempts[0];
      RegisterKeepsEmailsUnique(users, a.req, a.lookup, a.insert, hash);
      SequentialRegistrationsKeepEmailsUnique(Register(users, a.req, a.lookup, a.insert, hash).users, attempts[1..], hash);
    }
  }

  /** A second account under an existing username but a new e-mail is accepted. */
  lemma DuplicateUsernameAccepted(existing: User, email: string, password: string, id: ObjectId, hash: string -> string)
    requires email != existing.email
    ensures var r := Register([existing], RegisterRequest(existing.username, email, password), Answered, Inserted(id), hash);
      r.result.Ok? && r.users[0].username == r.users[1].username
  {
  }

  /** `users[k]` is the user `find_one` returns for `email`: the first one
      stored under it. */
  ghost predicate FirstWithEmail(users: seq<User>, email: string, k: int)
  {
    && 0 <= k < |users|
    && users[k].email == email
    && forall j :: 0 <= j < k ==> users[j].email != email
  }

  /** `login`: 500 on a failed lookup, 401 for an unknown e-mail and for a
      wrong password; otherwise the minted token with the user's public
      view. A stored user without id panics (`unwrap`). */
  function Login(
    users: seq<User>,
    req: LoginRequest,
    lookup: Lookup,
    verify: (string, string) -> bool,
    mint: string -> string): (o: Outcome<Result<AuthResponse, nat>>)
    ensures lookup.LookupFailed? ==> o == Done(Err(InternalError))
    ensures lookup.Answered? && (forall i :: 0 <= i < |users| ==> users[i].email != req.email) ==>
      o == Done(Err(Unauthorized))
    ensures o.Done? && o.value.Ok? ==>
      && lookup.Answered?
      && exists i :: 0 <= i < |users| && users[i].email == req.email
           && users[i].id.Some? && verify(req.password, users[i].passwordHash)
           && o.value.value == AuthResponse(
                mint(ToHex(users[i].id.value)),
                UserResponse(ToHex(users[i].id.value), users[i].username, users[i].email))
    ensures o.Done? && o.value.Err? ==> o.value.error in {InternalError, Unauthorized}
    ensures lookup.Answered? && o.Done? && o.value.Err? ==> o.value.error == Unauthorized
    ensures lookup.Answered? ==>
      forall k :: FirstWithEmail(users, req.email, k) ==>
        && (!verify(req.password, users[k].passwordHash) ==> o == Done(Err(Unauthorized)))
        && (verify(req.password, users[k].passwordHash) ==>
              if users[k].id.None? then o.Panic?
              else o == Done(Ok(AuthResponse(
                mint(ToHex(users[k].id.value)),
                UserResponse(ToHex(users[k].id.value), users[k].username, users[k].email)))))
  {
    if lookup.LookupFailed? then Done(Err(InternalError))
    else
      match Find(u => HasEmail(req.email, u), users)
      case None => Done(Err(Unauthorized))
      case Some(user) =>
        if !verify(req.password, user.passwordHash) then Done(Err(Unauthorized))
        else
          match user.id
          case None => Panic("called `Option::unwrap()` on a `None` value")
          case Some(oid) =>
            var userId := ToHex(oid);
            Done(Ok(AuthResponse(mint(userId), UserResponse(userId, user.username, user.email))))
  }

  /** A wrong password for the first user stored under an e-mail answers
      401, the same as an unknown e-mail. */
  lemma WrongPasswordUnauthorized(
    users: seq<User>, req: LoginRequest, k: nat, verify: (string, string) -> bool, mint: string -> string)
    requires FirstWithEmail(users, req.email, k) && !verify(req.password, users[k].passwordHash)
    ensures Login(users, req, Answered, verify, mint) == Done(Err(Unauthorized))
  {
  }
}

=== FILE: auth_service_models.dfy ===
/** The `auth-service` request and response shapes, and the field rules the
    `validator` derive attaches to the two requests. Lengths count Unicode
    scalar values, as `validator` counts `chars()`. The e-mail rule is the
    library's own and is passed in as a predicate. */
module AuthServiceModels {

  datatype RegisterRequest = RegisterRequest(username: string, email: string, password: string)

  datatype LoginRequest = LoginRequest(email: string, password: string)

  /** The public view of a user: no password, no hash. */
  datatype UserResponse = UserResponse(id: string, username: string, email: string)

  datatype AuthResponse = AuthResponse(token: string, user: UserResponse)

  /** One violated field rule and its message. */
  datatype FieldError = FieldError(field: string, message: string)

  const UsernameMin: nat := 3
  const UsernameMax: nat := 30
  const PasswordMin: nat := 8
  const PasswordMax: nat := 128

  const UsernameMessage: string := "Username must be between 3 and 30 characters"
  const EmailMessage: string := "Invalid email address"
  const PasswordLengthMessage: string := "Password must be between 8 and 128 characters"
  const PasswordRequiredMessage: string := "Password is required"

  predicate LengthWithin(s: string, min: nat, max: nat)
  {
    min <= |s| <= max
  }

  /** The rule violations of a registration, in field order. */
  function ValidateRegister(req: RegisterRequest, isEmail: string -> bool): (errs: seq<FieldError>)
    ensures |errs| == 0 <==>
      && UsernameMin <= |req.username| <= UsernameMax
      && isEmail(req.email)
      && PasswordMin <= |req.password| <= PasswordMax
    ensures FieldError("username", UsernameMessage) in errs
      <==> !(3 <= |req.username| <= 30)
    ensures FieldError("email", EmailMessage) in errs
      <==> !isEmail(req.email)
    ensures FieldError("password", PasswordLengthMessage) in errs
      <==> !(8 <= |req.password| <= 128)
    ensures forall i :: 0 <= i < |errs| ==> errs[i].field in {"username", "email", "password"}
  {
    (if LengthWithin(req.username, UsernameMin, UsernameMax) then [] else [FieldError("username", UsernameMessage)])
    + (if isEmail(req.email) then [] else [FieldError("email", EmailMessage)])
    + (if LengthWithin(req.password, PasswordMin, PasswordMax) then [] else [FieldError("password", PasswordLengthMessage)])
  }

  /** The rule violations of a login, in field order. */
  function ValidateLogin(req: LoginRequest, isEmail: string -> bool): (errs: seq<FieldError>)
    ensures |errs| == 0 <==> isEmail(req.email) && |req.password| >= 1
    ensures FieldError("email", EmailMessage) in errs
      <==> !isEmail(req.email)
    ensures FieldError("password", PasswordRequiredMessage) in errs
      <==> req.password == []
    ensures forall i :: 0 <= i < |errs| ==> errs[i].field in {"email", "password"}
  {
    (if isEmail(req.email) then [] else [FieldError("email", EmailMessage)])
    + (if |req.password| >= 1 then [] else [FieldError("password", PasswordRequiredMessage)])
  }

  /** Registration and login judge an e-mail address by the same rule. */
  lemma EmailRuleShared(reg: RegisterRequest, login: LoginRequest, isEmail: string -> bool)
    requires reg.email == login.email
    ensures FieldError("email", EmailMessage) in ValidateRegister(reg, isEmail)
      <==> FieldError("email", EmailMessage) in ValidateLogin(login, isEmail)
  {
  }
}

=== FILE: auth_utils.dfy ===
/** The authentication service's helpers: JWT claim construction,
    password hashing and password verification. Argon2 and the JWT encoder
    are opaque and passed in as functions; the clock is an input. Nothing
    here assumes that verifying a password against its own hash succeeds. */
module AuthUtils {
  import opened Common

  /** `u64` arithmetic wraps modulo 2^64 in a release build. */
  const U64Modulus: nat := 0x1_0000_0000_0000_0000

  /** `Claims { sub, exp, iat }`; `usize` is taken to be 64 bits wide. */
  datatype Claims = Claims(sub: string, exp: nat, iat: nat)

  /** The claims `create_jwt` signs at time `now` (seconds since the epoch):
      the subject is the user id, issued now, expiring `expirySeconds` later
      unless the addition wraps. */
  function MakeClaims(userId: string, now: nat, expirySeconds: nat): (c: Claims)
    requires now < U64Modulus && expirySeconds < U64Modulus
    ensures c.sub == userId
    ensures c.iat == now
    ensures c.exp < U64Modulus
    ensures now + expirySeconds < U64Modulus ==> c.exp - c.iat == expirySeconds && c.exp >= c.iat
    ensures now + expirySeconds >= U64Modulus ==> c.exp < c.iat
  {
    Claims(userId, (now + expirySeconds) % U64Modulus, now)
  }

  /** `create_jwt`: reads the clock (panicking before the epoch), builds the
      claims and hands them to the encoder, whose error is returned. */
  function CreateJwt(
    userId: string,
    secret: string,
    expirySeconds: nat,
    clock: int,
    encode: (Claims, string) -> Result<string, string>): (o: Outcome<Result<string, string>>)
    requires clock < U64Modulus && expirySeconds < U64Modulus
    ensures o.Panic? <==> clock < 0
    ensures o.Done? ==> o.value == encode(MakeClaims(userId, clock, expirySeconds), secret)
  {
    if clock < 0 then Panic("Time went backwards")
    else Done(encode(MakeClaims(userId, clock, expirySeconds), secret))
  }

  /** `hash_password`: Argon2 over the password and a freshly drawn salt,
      rendered as a PHC string; a hashing error panics (`expect`). */
  function HashPassword(password: string, salt: string, argon2: (string, string) -> Result<string, string>): (o: Outcome<string>)
    ensures o.Panic? <==> argon2(password, salt).Err?
    ensures o.Done? ==> o.value == argon2(password, salt).value
  {
    match argon2(password, salt)
    case Err(_) => Panic("Error hashing password")
    case Ok(phc) => Done(phc)
  }

  /** `verify_password`: panics when the stored hash is not a well-formed
      PHC string, and otherwise reports Argon2's verdict. */
  function VerifyPassword(
    password: string,
    hash: string,
    wellFormed: string -> bool,
    argon2Verify: (string, string) -> bool): (o: Outcome<bool>)
    ensures o.Panic? <==> !wellFormed(hash)
    ensures o.Done? ==> o.value == argon2Verify(password, hash)
  {
    if !wellFormed(hash) then Panic("Error parsing password hash")
    else Done(argon2Verify(password, hash))
  }
}

=== FILE: bson.dfy ===
/** BSON object ids as the services use them: parsed from client-supplied
    hex strings (`ObjectId::parse_str`) and rendered back (`to_hex`). An id
    is twelve bytes; the model keeps its canonical rendering, twenty-four
    lower-case hex digits. */
module Bson {
  import opened Common

  /** Twelve bytes, two hex digits each. */
  const HexLength: nat := 24

  predicate IsHexDigit(c: char)
  {
    '0' <= c <= '9' || 'a' <= c <= 'f' || 'A' <= c <= 'F'
  }

  predicate IsLowerHexDigit(c: char)
  {
    '0' <= c <= '9' || 'a' <= c <= 'f'
  }

  function LowerHexDigit(c: char): (d: char)
    requires IsHexDigit(c)
    ensures IsLowerHexDigit(d)
    ensures IsLowerHexDigit(c) ==> d == c
  {
    if 'A' <= c <= 'F' then ((c as int) + 32) as char else c
  }

  datatype ObjectId = ObjectId(hex: string)

  /** A MongoDB `find_one` either answers from the collection or fails. */
  datatype Lookup = Answered | LookupFailed

  /** A MongoDB `insert_one` either yields the new document's id or fails. */
  datatype Insert = Inserted(id: ObjectId) | InsertFailed

  /** The canonical rendering every id has. */
  predicate Canonical(o: ObjectId)
  {
    |o.hex| == HexLength && forall i :: 0 <= i < |o.hex| ==> IsLowerHexDigit(o.hex[i])
  }

  /** `ObjectId::parse_str`: exactly twenty-four hex digits, either case. */
  function ParseStr(s: string): (r: Option<ObjectId>)
    ensures r.Some? <==> |s| == HexLength && forall i :: 0 <= i < |s| ==> IsHexDigit(s[i])
    ensures r.Some? ==> Canonical(r.value)
  {
    if |s| == HexLength && forall i :: 0 <= i < |s| ==> IsHexDigit(s[i]) then
      Some(ObjectId(seq(|s|, i requires 0 <= i < |s| && IsHexDigit(s[i]) => LowerHexDigit(s[i]))))
    else
      None
  }

  /** `to_hex`. */
  function ToHex(o: ObjectId): (hex: string)
  {
    o.hex
  }

  /** Rendering an id and parsing it back gives the id. */
  lemma ParseToHex(o: ObjectId)
    requires Canonical(o)
    ensures ParseStr(ToHex(o)) == Some(o)
  {
    var s := ToHex(o);
    assert forall i :: 0 <= i < |s| ==> IsHexDigit(s[i]);
    var parsed := ParseStr(s).value;
    assert parsed.hex == s;
  }

  /** A string that parses denotes the id whose rendering is the string
      with its hex letters lowered; a lower-case string renders back as is. */
  lemma ToHexParse(s: string)
    requires ParseStr(s).Some?
    ensures |ToHex(ParseStr(s).value)| == |s|
    ensures forall i :: 0 <= i < |s| ==> ToHex(ParseStr(s).value)[i] == LowerHexDigit(s[i])
    ensures (forall i :: 0 <= i < |s| ==> IsLowerHexDigit(s[i])) ==> ToHex(ParseStr(s).value) == s
  {
  }
}

=== FILE: cache.dfy ===
/** The core service's Redis cache (`CacheManager`): three key families
    (`server:`, `channels:`, `session:`), each written with an expiry and
    read back; `invalidate` deletes one literal key.

    Redis is a key/value map, or down (every command errors). Expiry is not
    modelled beyond Redis's refusal of a zero expiry. JSON encoding and
    decoding are passed in as functions. */
module Cache {
  import opened Common

  datatype Redis = Up(kv: map<string, string>) | Down

  datatype CacheError =
    | ConnectionError      // the connection failed
    | InvalidExpireTime    // `SETEX` with an expiry of zero seconds

  const ServerPrefix: string := "server:"
  const ChannelsPrefix: string := "channels:"
  const SessionPrefix: string := "session:"

  function ServerKey(serverId: string): (key: string)
  {
    ServerPrefix + serverId
  }

  function ChannelsKey(serverId: string): (key: string)
  {
    ChannelsPrefix + serverId
  }

  function SessionKey(userId: string): (key: string)
  {
    SessionPrefix + userId
  }

  /** Each family's key determines its id. */
  lemma KeysInjective(a: string, b: string)
    ensures ServerKey(a) == ServerKey(b) ==> a == b
    ensures ChannelsKey(a) == ChannelsKey(b) ==> a == b
    ensures SessionKey(a) == SessionKey(b) ==> a == b
  {
    if ServerKey(a) == ServerKey(b) {
      PrefixCancel(ServerPrefix, a, b);
    }
    if ChannelsKey(a) == ChannelsKey(b) {
      PrefixCancel(ChannelsPrefix, a, b);
    }
    if SessionKey(a) == SessionKey(b) {
      PrefixCancel(SessionPrefix, a, b);
    }
  }

  /** No key belongs to two families, whatever the ids. */
  lemma KeyFamiliesDisjoint(a: string, b: string)
    ensures ServerKey(a) != ChannelsKey(b)
    ensures ServerKey(a) != SessionKey(b)
    ensures ChannelsKey(a) != SessionKey(b)
  {
    assert ServerKey(a)[0] == 's' && ChannelsKey(b)[0] == 'c';
    assert ServerKey(a)[2] == 'r' && SessionKey(b)[2] == 's';
    assert ChannelsKey(a)[0] == 'c' && SessionKey(b)[0] == 's';
  }

  /** `SETEX key ttl value`. */
  function SetEx(r: Redis, key: string, value: string, ttlSeconds: nat): (res: Result<Redis, CacheError>)
    ensures r.Down? ==> res == Err(ConnectionError)
    ensures r.Up? && ttlSeconds == 0 ==> res == Err(InvalidExpireTime)
    ensures res.Err? <==> r.Down? || ttlSeconds == 0
    ensures res.Ok? ==> res.value.Up? && res.value.kv.Keys == r.kv.Keys + {key}
    ensures res.Ok? ==> res.value.kv[key] == value
    ensures res.Ok? ==> forall k :: k in r.kv && k != key ==> res.value.kv[k] == r.kv[k]
  {
    match r
    case Down => Err(ConnectionError)
    case Up(kv) => if ttlSeconds == 0 then Err(InvalidExpireTime) else Ok(Up(kv[key := value]))
  }

  /** `GET key`. */
  function Get(r: Redis, key: string): (res: Result<Option<string>, CacheError>)
    ensures r.Down? <==> res.Err?
    ensures res.Ok? ==> (res.value.Some? <==> key in r.kv)
    ensures res.Ok? && res.value.Some? ==> res.value.value == r.kv[key]
  {
    match r
    case Down => Err(ConnectionError)
    case Up(kv) => Ok(if key in kv then Some(kv[key]) else None)
  }

  /** `DEL key`: deleting a missing key succeeds. */
  function Del(r: Redis, key: string): (res: Result<Redis, CacheError>)
    ensures r.Down? <==> res.Err?
    ensures res.Ok? ==> res.value.Up? && res.value.kv.Keys == r.kv.Keys - {key}
    ensures res.Ok? ==> forall k :: k in res.value.kv ==> res.value.kv[k] == r.kv[k]
  {
    match r
    case Down => Err(ConnectionError)
    case Up(kv) => Ok(Up(kv - {key}))
  }

  /** A read that finds nothing, or finds a value that does not decode,
      answers `Ok(None)`; only a connection error is an error. */
  function GetDecoded<T>(r: Redis, key: string, decode: string -> Option<T>): (res: Result<Option<T>, CacheError>)
    ensures r.Down? <==> res.Err?
    ensures r.Up? && key !in r.kv ==> res == Ok(None)
    ensures r.Up? && key in r.kv ==> res == Ok(decode(r.kv[key]))
  {
    match Get(r, key)
    case Err(e) => Err(e)
    case Ok(v) => Ok(if v.Some? then decode(v.value) else None)
  }

  /** `cache_server`: the encoded server under its `server:` key, with an
      expiry. */
  function CacheServer<T>(r: Redis, serverId: string, data: T, encode: T -> string, ttlSeconds: nat): (res: Result<Redis, CacheError>)
    ensures res.Err? <==> r.Down? || ttlSeconds == 0
    ensures res.Ok? ==> Get(res.value, ServerKey(serverId)) == Ok(Some(encode(data)))
    ensures res.Ok? ==> forall k :: k != ServerKey(serverId) ==> Get(res.value, k) == Get(r, k)
  {
    SetEx(r, ServerKey(serverId), encode(data), ttlSeconds)
  }

  /** `get_server`: the decoded value under the server's key; absent or
      undecodable reads as `Ok(None)`. */
  function GetServer<T>(r: Redis, serverId: string, decode: string -> Option<T>): (res: Result<Option<T>, CacheError>)
    ensures res.Err? <==> r.Down?
    ensures r.Up? && ServerKey(serverId) !in r.kv ==> res == Ok(None)
    ensures r.Up? && ServerKey(serverId) in r.kv ==> res == Ok(decode(r.kv[ServerKey(serverId)]))
  {
    GetDecoded(r, ServerKey(serverId), decode)
  }

  /** `cache_channels`: the encoded list under its `channels:` key. */
  function CacheChannels<T>(r: Redis, serverId: string, channels: T, encode: T -> string, ttlSeconds: nat): (res: Result<Redis, CacheError>)
    ensures res.Err? <==> r.Down? || ttlSeconds == 0
    ensures res.Ok? ==> Get(res.value, ChannelsKey(serverId)) == Ok(Some(encode(channels)))
    ensures res.Ok? ==> forall k :: k != ChannelsKey(serverId) ==> Get(res.value, k) == Get(r, k)
  {
    SetEx(r, ChannelsKey(serverId), encode(channels), ttlSeconds)
  }

  /** `get_channels`: the decoded list under the server's `channels:` key. */
  function GetChannels<T>(r: Redis, serverId: string, decode: string -> Option<T>): (res: Result<Option<T>, CacheError>)
    ensures res.Err? <==> r.Down?
    ensures r.Up? && ChannelsKey(serverId) !in r.kv ==> res == Ok(None)
    ensures r.Up? && ChannelsKey(serverId) in r.kv ==> res == Ok(decode(r.kv[ChannelsKey(serverId)]))
  {
    GetDecoded(r, ChannelsKey(serverId), decode)
  }

  /** `cache_session`: sessions are stored as given, with no encoding. */
  function CacheSession(r: Redis, userId: string, sessionData: string, ttlSeconds: nat): (res: Result<Redis, CacheError>)
    ensures res.Err? <==> r.Down? || ttlSeconds == 0
    ensures res.Ok? ==> Get(res.value, SessionKey(userId)) == Ok(Some(sessionData))
    ensures res.Ok? ==> forall k :: k != SessionKey(userId) ==> Get(res.value, k) == Get(r, k)
  {
    SetEx(r, SessionKey(userId), sessionData, ttlSeconds)
  }

  /** `get_session`: the raw string under the user's `session:` key. */
  function GetSession(r: Redis, userId: string): (res: Result<Option<string>, CacheError>)
    ensures res.Err? <==> r.Down?
    ensures res.Ok? ==> (res.value.Some? <==> SessionKey(userId) in r.kv)
    ensures res.Ok? && res.value.Some? ==> res.value.value == r.kv[SessionKey(userId)]
  {
    Get(r, SessionKey(userId))
  }

  /** `invalidate(pattern)`: deletes the one key spelled `pattern`; no
      wildcard is expanded. */
  function Invalidate(r: Redis, pattern: string): (res: Result<Redis, CacheError>)
    ensures res.Err? <==> r.Down?
    ensures res.Ok? ==> Get(res.value, pattern) == Ok(None)
    ensures res.Ok? ==> forall k :: k != pattern ==> Get(res.value, k) == Get(r, k)
  {
    Del(r, pattern)
  }

  /** Writing a server and reading it back yields it when decoding inverts
      encoding; a value that does not decode reads as absent. */
  lemma ServerRoundTrip<T>(r: Redis, serverId: string, data: T, encode: T -> string, decode: string -> Option<T>, ttlSeconds: nat)
    requires r.Up? && ttlSeconds > 0
    ensures CacheServer(r, serverId, data, encode, ttlSeconds).Ok?
    ensures decode(encode(data)) == Some(data) ==>
      GetServer(CacheServer(r, serverId, data, encode, ttlSeconds).value, serverId, decode) == Ok(Some(data))
    ensures decode(encode(data)).None? ==>
      GetServer(CacheServer(r, serverId, data, encode, ttlSeconds).value, serverId, decode) == Ok(None)
  {
  }

  /** The same for a server's channel list. */
  lemma ChannelsRoundTrip<T>(r: Redis, serverId: string, channels: T, encode: T -> string, decode: string -> Option<T>, ttlSeconds: nat)
    requires r.Up? && ttlSeconds > 0
    ensures decode(encode(channels)) == Some(channels) ==>
      GetChannels(CacheChannels(r, serverId, channels, encode, ttlSeconds).value, serverId, decode) == Ok(Some(channels))
  {
  }

  /** A stored session is read back verbatim. */
  lemma SessionRoundTrip(r: Redis, userId: string, sessionData: string, ttlSeconds: nat)
    requires r.Up? && ttlSeconds > 0
    ensures GetSession(CacheSession(r, userId, sessionData, ttlSeconds).value, userId) == Ok(Some(sessionData))
  {
  }

  /** Caching a server touches neither any channel list nor any session. */
  lemma CachingServerLeavesOtherFamilies<T>(
    r: Redis, serverId: string, data: T, encode: T -> string, ttlSeconds: nat, otherId: string, userId: string)
    requires CacheServer(r, serverId, data, encode, ttlSeconds).Ok?
    ensures var r' := CacheServer(r, serverId, data, encode, ttlSeconds).value;
      Get(r', ChannelsKey(otherId)) == Get(r, ChannelsKey(otherId))
      && GetSession(r', userId) == GetSession(r, userId)
  {
    KeyFamiliesDisjoint(serverId, otherId);
    KeyFamiliesDisjoint(serverId, userId);
  }

  /** Invalidating a server's key makes it read as absent. */
  lemma InvalidateServer<T>(r: Redis, serverId: string, decode: string -> Option<T>)
    requires r.Up?
    ensures GetServer(Invalidate(r, ServerKey(serverId)).value, serverId, decode) == Ok(None)
  {
  }

  /** A glob such as `server:*` is taken literally: it removes no server
      entry other than one whose id is `*` itself. */
  lemma InvalidateTakesPatternLiterally(r: Redis, serverId: string)
    requires r.Up? && ServerKey(serverId) in r.kv && serverId != "*"
    ensures Invalidate(r, "server:*").Ok?
    ensures ServerKey(serverId) in Invalidate(r, "server:*").value.kv
  {
    KeysInjective(serverId, "*");
    assert ServerKey("*") == "server:*";
  }
}

=== FILE: channel_store.dfy ===
/** The channel store: the channel list of the selected server, the
    current channel and a loading flag. `fetchChannels` is split into
    `BeginFetch` and `EndFetch` like the message store's fetch. */
module ChannelStore {
  import opened Common

  /** The client's `Channel` record; `channelType` is free text, and the
      sidebar only recognises `"text"` and `"voice"`. */
  datatype Channel = Channel(
    id: string,
    serverId: string,
    name: string,
    channelType: string,
    topic: Option<string>,
    createdAt: string)

  datatype State = State(channels: seq<Channel>, currentChannel: Option<Channel>, loading: bool)

  const Initial: State := State([], None, false)

  /** `/servers/${serverId}/channels`. */
  function ChannelsEndpoint(serverId: string): (url: string)
    ensures |url| == |serverId| + 18
    ensures "/servers/" <= url
    ensures url[9..9 + |serverId|] == serverId
    ensures url[9 + |serverId|..] == "/channels"
  {
    "/servers/" + serverId + "/channels"
  }

  /** The endpoint names exactly one server. */
  lemma ChannelsEndpointInjective(a: string, b: string)
    ensures ChannelsEndpoint(a) == ChannelsEndpoint(b) ==> a == b
  {
    if ChannelsEndpoint(a) == ChannelsEndpoint(b) {
      SandwichCancel("/servers/", a, b, "/channels");
    }
  }

  /** `set({ loading: true })` at the start of `fetchChannels`. */
  function BeginFetch(s: State): (s': State)
    ensures s'.loading
    ensures s'.channels == s.channels && s'.currentChannel == s.currentChannel
  {
    s.(loading := true)
  }

  /** The settled request replaces the list wholesale on success and keeps it
      on failure; `loading` ends false; the current channel is never touched,
      even when it is missing from the new list. */
  function EndFetch(s: State, response: Result<seq<Channel>, string>): (s': State)
    ensures !s'.loading
    ensures s'.currentChannel == s.currentChannel
    ensures response.Ok? ==> s'.channels == response.value
    ensures response.Err? ==> s'.channels == s.channels
  {
    match response
    case Ok(list) => s.(channels := list, loading := false)
    case Err(_) => s.(loading := false)
  }

  /** `setCurrentChannel`: sets only the current channel. */
  function SetCurrentChannel(s: State, c: Channel): (s': State)
    ensures s'.currentChannel == Some(c)
    ensures s'.channels == s.channels && s'.loading == s.loading
  {
    s.(currentChannel := Some(c))
  }

  /** A channel selected under one server stays current after the list of
      another server has replaced the channels. */
  lemma CurrentChannelCanDangle(c: Channel, other: seq<Channel>)
    requires c !in other
    ensures var s := EndFetch(BeginFetch(SetCurrentChannel(Initial, c)), Ok(other));
      s.currentChannel == Some(c) && c !in s.channels
  {
  }
}

=== FILE: common.dfy ===
/** Shared vocabulary of the model: optional values, results, and the few
    sequence and string operations the client and the services rely on
    (`Array.prototype.filter`, `Array.prototype.reverse`, `a || b`
    defaulting, decimal rendering of a number). */
module Common {

  /** `T | null` in TypeScript, `Option<T>` in Rust. */
  datatype Option<+T> = None | Some(value: T)

  /** A settled promise or a Rust `Result`. */
  datatype Result<+T, +E> = Ok(value: T) | Err(error: E)

  /** A Rust call that either returns or panics (`unwrap`, `expect`). */
  datatype Outcome<+T> = Done(value: T) | Panic(message: string)

  /** `process.env.X || fallback`: an unset and an empty variable both fall back. */
  function EnvOr(env: Option<string>, fallback: string): (r: string)
  {
    if env.Some? && env.value != "" then env.value else fallback
  }

  // ---------------------------------------------------------------------------
  // Array.prototype.filter
  // ---------------------------------------------------------------------------

  /** The elements of `s` that satisfy `p`, in their original order. */
  function Filter<T>(p: T -> bool, s: seq<T>): (r: seq<T>)
    ensures |r| <= |s|
    ensures forall i :: 0 <= i < |r| ==> p(r[i])
    ensures forall i :: 0 <= i < |r| ==> r[i] in s
    ensures forall i :: 0 <= i < |s| && p(s[i]) ==> s[i] in r
  {
    if |s| == 0 then []
    else (if p(s[0]) then [s[0]] else []) + Filter(p, s[1..])
  }

  /** Filtering distributes over concatenation: relative order is kept. */
  lemma {:induction false} FilterConcat<T>(p: T -> bool, a: seq<T>, b: seq<T>)
    ensures Filter(p, a + b) == Filter(p, a) + Filter(p, b)
  {
    if |a| == 0 {
      assert a + b == b;
    } else {
      assert (a + b)[0] == a[0];
      assert (a + b)[1..] == a[1..] + b;
      FilterConcat(p, a[1..], b);
    }
  }

  /** A sequence all of whose elements pass the filter is left as it is. */
  lemma {:induction false} FilterKeepsAll<T>(p: T -> bool, s: seq<T>)
    requires forall i :: 0 <= i < |s| ==> p(s[i])
    ensures Filter(p, s) == s
  {
    if |s| > 0 {
      FilterKeepsAll(p, s[1..]);
    }
  }

  /** Filtering twice with the same predicate is filtering once. */
  lemma FilterIdempotent<T>(p: T -> bool, s: seq<T>)
    ensures Filter(p, Filter(p, s)) == Filter(p, s)
  {
    FilterKeepsAll(p, Filter(p, s));
  }

  /** The number of elements of `s` satisfying `p`. */
  function Count<T>(p: T -> bool, s: seq<T>): (n: nat)
  {
    |Filter(p, s)|
  }

  /** Filtering by `p` and by `q` for two predicates that never both hold
      and together cover every element splits `s` without loss. */
  lemma {:induction false} FilterPartition<T>(p: T -> bool, q: T -> bool, s: seq<T>)
    requires forall i :: 0 <= i < |s| ==> p(s[i]) != q(s[i])
    ensures |Filter(p, s)| + |Filter(q, s)| == |s|
  {
    if |s| > 0 {
      FilterPartition(p, q, s[1..]);
    }
  }

  /** The first element of `s` satisfying `p`, as a database `find_one`
      returns it. */
  function Find<T>(p: T -> bool, s: seq<T>): (r: Option<T>)
    ensures r.Some? <==> exists i :: 0 <= i < |s| && p(s[i])
    ensures r.Some? ==> r.value in s && p(r.value)
    ensures forall k :: 0 <= k < |s| && p(s[k]) && (forall j :: 0 <= j < k ==> !p(s[j])) ==> r == Some(s[k])
    ensures r.Some? ==> exists k :: 0 <= k < |s| && r.value == s[k] && p(s[k]) && forall j :: 0 <= j < k ==> !p(s[j])
  {
    if |s| == 0 then None
    else if p(s[0]) then Some(s[0])
    else Find(p, s[1..])
  }

  // ---------------------------------------------------------------------------
  // Array.prototype.reverse
  // ---------------------------------------------------------------------------

  /** `s` read back to front. */
  function Reverse<T>(s: seq<T>): (r: seq<T>)
    ensures |r| == |s|
    ensures forall i :: 0 <= i < |s| ==> r[i] == s[|s| - 1 - i]
  {
    if |s| == 0 then [] else Reverse(s[1..]) + [s[0]]
  }

  // ---------------------------------------------------------------------------
  // Sequence cancellation, used for the injectivity of endpoint and key builders
  // ---------------------------------------------------------------------------

  lemma PrefixCancel<T>(p: seq<T>, a: seq<T>, b: seq<T>)
    requires p + a == p + b
    ensures a == b
  {
    assert a == (p + a)[|p|..];
    assert b == (p + b)[|p|..];
  }

  lemma SuffixCancel<T>(a: seq<T>, b: seq<T>, q: seq<T>)
    requires a + q == b + q
    ensures a == b
  {
    assert |a| == |b|;
    assert a == (a + q)[..|a|];
    assert b == (b + q)[..|b|];
  }

  /** Two strings `p + a + q` and `p + b + q` agree only when `a == b`. */
  lemma SandwichCancel<T>(p: seq<T>, a: seq<T>, b: seq<T>, q: seq<T>)
    requires p + a + q == p + b + q
    ensures a == b
  {
    assert p + a + q == p + (a + q);
    assert p + b + q == p + (b + q);
    PrefixCancel(p, a + q, b + q);
    SuffixCancel(a, b, q);
  }

  // ---------------------------------------------------------------------------
  // Decimal rendering of a number (`${n}` in a template literal)
  // ---------------------------------------------------------------------------

  predicate IsDigit(c: char)
  {
    '0' <= c <= '9'
  }

  function DigitChar(d: nat): (c: char)
    requires d < 10
    ensures IsDigit(c) && (c as int) - ('0' as int) == d
  {
    ((d + '0' as int) as char)
  }

  /** The shortest decimal numeral of `n`. */
  function Decimal(n: nat): (r: string)
    ensures |r| >= 1
    ensures forall i :: 0 <= i < |r| ==> IsDigit(r[i])
    ensures |r| > 1 ==> r[0] != '0'
    decreases n
  {
    if n < 10 then [DigitChar(n)] else Decimal(n / 10) + [DigitChar(n % 10)]
  }

  /** The number a string of digits denotes. */
  function DecimalValue(s: string): (n: nat)
    requires forall i :: 0 <= i < |s| ==> IsDigit(s[i])
  {
    if |s| == 0 then 0
    else
      var last := s[|s| - 1];
      assert IsDigit(last);
      DecimalValue(s[..|s| - 1]) * 10 + ((last as int) - ('0' as int))
  }

  /** Rendering a number and reading it back gives the number. */
  lemma {:induction false} DecimalRoundTrip(n: nat)
    ensures DecimalValue(Decimal(n)) == n
    decreases n
  {
    if n >= 10 {
      var r := Decimal(n);
      assert r[..|r| - 1] == Decimal(n / 10);
      DecimalRoundTrip(n / 10);
    }
  }

  /** Distinct numbers render to distinct numerals. */
  lemma DecimalInjective(m: nat, n: nat)
    ensures Decimal(m) == Decimal(n) ==> m == n
  {
    DecimalRoundTrip(m);
    DecimalRoundTrip(n);
  }
}

=== FILE: core_handlers.dfy ===
/** The core service's `create_server` handler over an abstract `servers`
    collection. The role id the driver generates, the two clock readings
    and the insert's fate are inputs. */
module CoreHandlers {
  import opened Common
  import opened Bson

  /** Bit set granted to the default role (a placeholder in the service). */
  const EveryonePermissions: nat := 0x1
  const EveryoneName: string := "@everyone"
  const EveryoneColor: string := "#ffffff"

  datatype Role = Role(roleId: ObjectId, name: string, permissions: nat, color: string, position: int)

  datatype Member = Member(userId: ObjectId, roles: seq<ObjectId>, joinedAt: int)

  datatype Server = Server(
    id: Option<ObjectId>,
    name: string,
    iconUrl: Option<string>,
    ownerId: ObjectId,
    roles: seq<Role>,
    channels: seq<ObjectId>,
    members: seq<Member>,
    createdAt: int)

  datatype CreateServerRequest = CreateServerRequest(name: string, ownerId: string)

  datatype Body = Text(text: string) | IdJson(id: string)

  datatype Response = Response(status: nat, body: Body)

  const CreateFailedResponse: Response := Response(500, Text("Failed to create server"))

  /** The shape of a server nobody has touched yet: one default role, the
      owner as its only member holding no role, no channels, no icon. */
  ghost predicate Pristine(s: Server, owner: ObjectId)
  {
    && s.ownerId == owner
    && s.iconUrl.None?
    && s.channels == []
    && |s.roles| == 1
    && s.roles[0].name == EveryoneName
    && s.roles[0].permissions == EveryonePermissions
    && s.roles[0].color == EveryoneColor
    && s.roles[0].position == 0
    && |s.members| == 1
    && s.members[0].userId == owner
    && s.members[0].roles == []
  }

  ghost predicate IsMember(s: Server, user: ObjectId)
  {
    exists i :: 0 <= i < |s.members| && s.members[i].userId == user
  }

  /** The record `create_server` inserts. `joined_at` and `created_at` are two
      separate clock readings. */
  function NewServer(name: string, owner: ObjectId, roleId: ObjectId, joinedAt: int, createdAt: int): (s: Server)
    ensures Pristine(s, owner)
    ensures s.id.None? && s.name == name
    ensures IsMember(s, owner)
    ensures forall i :: 0 <= i < |s.members| ==> s.members[i].userId == owner
    ensures s.roles[0].roleId == roleId && s.members[0].joinedAt == joinedAt && s.createdAt == createdAt
  {
    Server(
      None, name, None, owner,
      [Role(roleId, EveryoneName, EveryonePermissions, EveryoneColor, 0)],
      [],
      [Member(owner, [], joinedAt)],
      createdAt)
  }

  datatype Created = Created(servers: seq<Server>, response: Response)

  /** `create_server`: an owner id that is not twenty-four hex digits panics
      before anything is inserted; otherwise the pristine record is
      inserted and 201 `{"id": hex}` answered, or 500 when the insert fails. */
  function CreateServer(
    servers: seq<Server>,
    req: CreateServerRequest,
    roleId: ObjectId,
    joinedAt: int,
    createdAt: int,
    insert: Insert): (o: Outcome<Created>)
    ensures o.Panic? <==> ParseStr(req.ownerId).None?
    ensures o.Done? && insert.InsertFailed? ==> o.value == Created(servers, CreateFailedResponse)
    ensures o.Done? && insert.Inserted? ==>
      && o.value.response == Response(201, IdJson(ToHex(insert.id)))
      && |o.value.servers| == |servers| + 1
      && o.value.servers[..|servers|] == servers
      && o.value.servers[|servers|].id == Some(insert.id)
      && o.value.servers[|servers|].name == req.name
      && Pristine(o.value.servers[|servers|], ParseStr(req.ownerId).value)
  {
    match ParseStr(req.ownerId)
    case None => Panic("called `Result::unwrap()` on an `Err` value")
    case Some(owner) =>
      var s := NewServer(req.name, owner, roleId, joinedAt, createdAt);
      match insert
      case InsertFailed => Done(Created(servers, CreateFailedResponse))
      case Inserted(id) => Done(Created(servers + [s.(id := Some(id))], Response(201, IdJson(ToHex(id)))))
  }

  /** The owner id the client sends is stored in canonical form: an id given
      in lower case is stored as given, and the stored owner renders back to
      a string that parses to the same id. */
  lemma OwnerStoredCanonically(
    servers: seq<Server>, req: CreateServerRequest, roleId: ObjectId, joinedAt: int, createdAt: int, id: ObjectId)
    requires ParseStr(req.ownerId).Some?
    ensures var o := CreateServer(servers, req, roleId, joinedAt, createdAt, Inserted(id));
      && o.Done?
      && var owner := o.value.servers[|servers|].ownerId;
         && ParseStr(ToHex(owner)) == Some(owner)
         && ((forall i :: 0 <= i < |req.ownerId| ==> IsLowerHexDigit(req.ownerId[i])) ==> ToHex(owner) == req.ownerId)
  {
    var owner := ParseStr(req.ownerId).value;
    ParseToHex(owner);
    ToHexParse(req.ownerId);
  }
}

=== FILE: message_store.dfy ===
/** The message store: the current list of messages and a loading flag.

    `fetchMessages` is asynchronous, so it is two transitions: `BeginFetch`
    when it is called and `EndFetch` when the request settles; any other
    action may run in between. The REST call is an input: the endpoint it
    targets is `MessagesEndpoint`, and its outcome is a `Result`. */
module MessageStore {
  import opened Common

  datatype Message = Message(
    id: string,
    channelId: string,
    userId: string,
    content: string,
    attachments: seq<string>,
    createdAt: string)

  datatype State = State(messages: seq<Message>, loading: bool)

  /** The page size the store asks for. */
  const PageLimit: nat := 50

  /** `/channels/${channelId}/messages?limit=50`. */
  function MessagesEndpoint(channelId: string): (url: string)
    ensures |url| == |channelId| + 28
    ensures "/channels/" <= url
    ensures url[10..10 + |channelId|] == channelId
    ensures url[10 + |channelId|..] == "/messages?limit=50"
  {
    "/channels/" + channelId + "/messages?limit=" + Decimal(PageLimit)
  }

  /** The endpoint names exactly one channel. */
  lemma MessagesEndpointInjective(a: string, b: string)
    ensures MessagesEndpoint(a) == MessagesEndpoint(b) ==> a == b
  {
    var q := "/messages?limit=" + Decimal(PageLimit);
    assert MessagesEndpoint(a) == "/channels/" + a + q;
    assert MessagesEndpoint(b) == "/channels/" + b + q;
    if MessagesEndpoint(a) == MessagesEndpoint(b) {
      SandwichCancel("/channels/", a, b, q);
    }
  }

  /** `set({ loading: true })` at the start of `fetchMessages`. */
  function BeginFetch(s: State): (s': State)
    ensures s'.loading
    ensures s'.messages == s.messages
  {
    s.(loading := true)
  }

  /** The settled request: on success the page, which the server sends
      newest first, replaces the list reversed; on failure the list stays.
      Either way `loading` ends false. */
  function EndFetch(s: State, response: Result<seq<Message>, string>): (s': State)
    ensures !s'.loading
    ensures response.Err? ==> s'.messages == s.messages
    ensures response.Ok? ==>
      && |s'.messages| == |response.value|
      && forall i :: 0 <= i < |response.value| ==>
           s'.messages[i] == response.value[|response.value| - 1 - i]
  {
    match response
    case Ok(page) => State(Reverse(page), false)
    case Err(_) => s.(loading := false)
  }

  /** `addMessage`: appends at the tail, with no duplicate or channel check. */
  function AddMessage(s: State, m: Message): (s': State)
    ensures |s'.messages| == |s.messages| + 1
    ensures s'.messages[..|s.messages|] == s.messages
    ensures s'.messages[|s.messages|] == m
    ensures s'.loading == s.loading
  {
    s.(messages := s.messages + [m])
  }

  ghost predicate NewestFirst(page: seq<Message>, key: Message -> int)
  {
    forall i, j :: 0 <= i < j < |page| ==> key(page[i]) >= key(page[j])
  }

  ghost predicate OldestFirst(ms: seq<Message>, key: Message -> int)
  {
    forall i, j :: 0 <= i < j < |ms| ==> key(ms[i]) <= key(ms[j])
  }

  /** A page ordered newest first by any timestamp key is stored oldest first. */
  lemma FetchStoresOldestFirst(s: State, page: seq<Message>, key: Message -> int)
    requires NewestFirst(page, key)
    ensures OldestFirst(EndFetch(s, Ok(page)).messages, key)
  {
    var ms := EndFetch(s, Ok(page)).messages;
    forall i, j | 0 <= i < j < |ms|
      ensures key(ms[i]) <= key(ms[j])
    {
      assert ms[i] == page[|page| - 1 - i];
      assert ms[j] == page[|page| - 1 - j];
    }
  }

  /** The newest-first page `[m3, m2, m1]` is stored as `[m1, m2, m3]`. */
  lemma FetchReversesThreeMessages(s: State, m1: Message, m2: Message, m3: Message)
    ensures EndFetch(s, Ok([m3, m2, m1])).messages == [m1, m2, m3]
  {
    var ms := EndFetch(s, Ok([m3, m2, m1])).messages;
    assert ms[0] == m1 && ms[1] == m2 && ms[2] == m3;
  }

  predicate HasId(id: string, m: Message)
  {
    m.id == id
  }

  /** How many stored messages carry `id`. */
  function Occurrences(ms: seq<Message>, id: string): (n: nat)
  {
    Count(m => HasId(id, m), ms)
  }

  /** No deduplication: adding a message raises the count of its id by one,
      so adding an id already present leaves it twice in the list. */
  lemma AddMessageKeepsDuplicates(s: State, m: Message)
    ensures Occurrences(AddMessage(s, m).messages, m.id) == Occurrences(s.messages, m.id) + 1
    ensures (exists i :: 0 <= i < |s.messages| && s.messages[i].id == m.id) ==>
      Occurrences(AddMessage(s, m).messages, m.id) >= 2
  {
    var p := (x: Message) => HasId(m.id, x);
    FilterConcat(p, s.messages, [m]);
    if exists i :: 0 <= i < |s.messages| && s.messages[i].id == m.id {
      var i :| 0 <= i < |s.messages| && s.messages[i].id == m.id;
      assert s.messages[i] in Filter(p, s.messages);
    }
  }

  /** A message added while a fetch is pending is lost when the fetch
      succeeds: the list becomes the reversed page alone. */
  lemma LiveMessageLostByPendingFetch(s: State, m: Message, page: seq<Message>)
    ensures EndFetch(AddMessage(BeginFetch(s), m), Ok(page)).messages == Reverse(page)
  {
  }
}

=== FILE: server_store.dfy ===
/** The server store: the user's servers, the current server and a loading
    flag. `fetchServers` is split into `BeginFetch` and `EndFetch`;
    `createServer` has no loading phase and is modelled at the moment its
    POST settles, over the state current at that moment (`get()` is read
    after the `await`). */
module ServerStore {
  import opened Common

  datatype Server = Server(id: string, name: string, ownerId: string, inviteCode: string, createdAt: string)

  datatype State = State(servers: seq<Server>, currentServer: Option<Server>, loading: bool)

  function BeginFetch(s: State): (s': State)
    ensures s'.loading
    ensures s'.servers == s.servers && s'.currentServer == s.currentServer
  {
    s.(loading := true)
  }

  /** The settled `fetchServers`: success replaces the list, failure keeps
      it, `loading` ends false either way. */
  function EndFetch(s: State, response: Result<seq<Server>, string>): (s': State)
    ensures !s'.loading
    ensures s'.currentServer == s.currentServer
    ensures response.Ok? ==> s'.servers == response.value
    ensures response.Err? ==> s'.servers == s.servers
  {
    match response
    case Ok(list) => s.(servers := list, loading := false)
    case Err(_) => s.(loading := false)
  }

  /** `setCurrentServer`: sets only the current server. */
  function SetCurrentServer(s: State, srv: Server): (s': State)
    ensures s'.currentServer == Some(srv)
    ensures s'.servers == s.servers && s'.loading == s.loading
  {
    s.(currentServer := Some(srv))
  }

  /** The state after `createServer` and what its promise settles with. */
  datatype Created = Created(state: State, result: Result<Server, string>)

  /** `createServer` once its POST has settled: on success the returned
      server is appended and returned; on failure the error propagates and
      nothing changes. The current server and `loading` are never touched. */
  function CreateServer(s: State, response: Result<Server, string>): (c: Created)
    ensures c.result == response
    ensures response.Err? ==> c.state == s
    ensures response.Ok? ==>
      && |c.state.servers| == |s.servers| + 1
      && c.state.servers[..|s.servers|] == s.servers
      && c.state.servers[|s.servers|] == response.value
    ensures c.state.currentServer == s.currentServer && c.state.loading == s.loading
  {
    match response
    case Ok(srv) => Created(s.(servers := s.servers + [srv]), Ok(srv))
    case Err(e) => Created(s, Err(e))
  }

  /** `createServer` calls settling one after another. */
  function CreateAll(s: State, responses: seq<Result<Server, string>>): (s': State)
    decreases |responses|
  {
    if |responses| == 0 then s else CreateAll(CreateServer(s, responses[0]).state, responses[1..])
  }

  predicate Succeeded(response: Result<Server, string>)
  {
    response.Ok?
  }

  /** Creations only ever append: the servers held before stay in place, one
      server is added per successful creation, every created server is
      listed, and neither the current server nor `loading` moves. */
  lemma {:induction false} CreationsOnlyAppend(s: State, responses: seq<Result<Server, string>>)
    ensures s.servers <= CreateAll(s, responses).servers
    ensures |CreateAll(s, responses).servers| == |s.servers| + Count(Succeeded, responses)
    ensures forall i :: 0 <= i < |responses| && responses[i].Ok? ==>
      responses[i].value in CreateAll(s, responses).servers
    ensures CreateAll(s, responses).currentServer == s.currentServer
    ensures CreateAll(s, responses).loading == s.loading
    decreases |responses|
  {
    if |responses| > 0 {
      var s1 := CreateServer(s, responses[0]).state;
      var rest := responses[1..];
      CreationsOnlyAppend(s1, rest);
      var final := CreateAll(s1, rest);
      assert CreateAll(s, responses) == final;
      assert responses == [responses[0]] + rest;
      FilterConcat(Succeeded, [responses[0]], rest);
      assert s.servers <= s1.servers;
      forall i | 0 <= i < |responses| && responses[i].Ok?
        ensures responses[i].value in final.servers
      {
        if i == 0 {
          assert s1.servers[|s.servers|] == responses[0].value;
          assert final.servers[|s.servers|] == s1.servers[|s.servers|];
        } else {
          assert rest[i - 1] == responses[i];
        }
      }
    }
  }
}

=== FILE: sidebar_channels.dfy ===
/** The channel sidebar: what it fetches, how it splits the channel list
    into a text and a voice section, which entries react to a click, and
    which entry is highlighted. Markup and styling are not modelled; the
    rendered view is reduced to its two ordered sections. */
module SidebarChannels {
  import opened Common
  import ChannelStore
  import ServerStore

  type Channel = ChannelStore.Channel

  predicate IsText(c: Channel)
  {
    c.channelType == "text"
  }

  predicate IsVoice(c: Channel)
  {
    c.channelType == "voice"
  }

  predicate IsNeither(c: Channel)
  {
    !IsText(c) && !IsVoice(c)
  }

  /** `channels.filter((c) => c.channel_type === "text")`. */
  function TextChannels(cs: seq<Channel>): (r: seq<Channel>)
    ensures |r| <= |cs|
    ensures forall i :: 0 <= i < |r| ==> r[i].channelType == "text" && r[i] in cs
    ensures forall i :: 0 <= i < |cs| && cs[i].channelType == "text" ==> cs[i] in r
  {
    Filter(IsText, cs)
  }

  /** `channels.filter((c) => c.channel_type === "voice")`. */
  function VoiceChannels(cs: seq<Channel>): (r: seq<Channel>)
    ensures |r| <= |cs|
    ensures forall i :: 0 <= i < |r| ==> r[i].channelType == "voice" && r[i] in cs
    ensures forall i :: 0 <= i < |cs| && cs[i].channelType == "voice" ==> cs[i] in r
  {
    Filter(IsVoice, cs)
  }

  /** Membership: the text section holds exactly the text channels, the
      voice section exactly the voice channels; none is in both, and a
      channel of any other type is in neither. */
  lemma SectionsAreExact(cs: seq<Channel>, c: Channel)
    ensures c in TextChannels(cs) <==> c in cs && c.channelType == "text"
    ensures c in VoiceChannels(cs) <==> c in cs && c.channelType == "voice"
    ensures !(c in TextChannels(cs) && c in VoiceChannels(cs))
    ensures c.channelType != "text" && c.channelType != "voice" ==>
      c !in TextChannels(cs) && c !in VoiceChannels(cs)
  {
    if c in cs {
      var i :| 0 <= i < |cs| && cs[i] == c;
      assert IsText(cs[i]) ==> cs[i] in TextChannels(cs);
      assert IsVoice(cs[i]) ==> cs[i] in VoiceChannels(cs);
    }
    if c in TextChannels(cs) {
      var i :| 0 <= i < |TextChannels(cs)| && TextChannels(cs)[i] == c;
    }
    if c in VoiceChannels(cs) {
      var i :| 0 <= i < |VoiceChannels(cs)| && VoiceChannels(cs)[i] == c;
    }
  }

  /** Both sections keep the list's order: splitting a concatenation is
      concatenating the splits. */
  lemma SectionsKeepOrder(a: seq<Channel>, b: seq<Channel>)
    ensures TextChannels(a + b) == TextChannels(a) + TextChannels(b)
    ensures VoiceChannels(a + b) == VoiceChannels(a) + VoiceChannels(b)
  {
    FilterConcat(IsText, a, b);
    FilterConcat(IsVoice, a, b);
  }

  /** Every channel lands in exactly one of: the text section, the voice
      section, or nowhere. */
  lemma {:induction false} SectionsAccountForEveryChannel(cs: seq<Channel>)
    ensures |TextChannels(cs)| + |VoiceChannels(cs)| + |Filter(IsNeither, cs)| == |cs|
  {
    if |cs| > 0 {
      SectionsAccountForEveryChannel(cs[1..]);
    }
  }

  /** An entry of the rendered list. */
  datatype Entry = TextEntry(channel: Channel) | VoiceEntry(channel: Channel)

  /** The entries in render order: the text section, then the voice section. */
  function Entries(cs: seq<Channel>): (es: seq<Entry>)
    ensures |es| == |TextChannels(cs)| + |VoiceChannels(cs)|
    ensures forall i :: 0 <= i < |TextChannels(cs)| ==> es[i] == TextEntry(TextChannels(cs)[i])
    ensures forall i :: |TextChannels(cs)| <= i < |es| ==>
      es[i] == VoiceEntry(VoiceChannels(cs)[i - |TextChannels(cs)|])
  {
    seq(|TextChannels(cs)|, i requires 0 <= i < |TextChannels(cs)| => TextEntry(TextChannels(cs)[i]))
    + seq(|VoiceChannels(cs)|, i requires 0 <= i < |VoiceChannels(cs)| => VoiceEntry(VoiceChannels(cs)[i]))
  }

  /** A click on an entry: text entries call `setCurrentChannel(channel)`,
      voice entries have no click handler. */
  function Click(s: ChannelStore.State, e: Entry): (s': ChannelStore.State)
    ensures e.VoiceEntry? ==> s' == s
    ensures e.TextEntry? ==> s'.currentChannel == Some(e.channel)
    ensures s'.channels == s.channels && s'.loading == s.loading
  {
    match e
    case TextEntry(c) => ChannelStore.SetCurrentChannel(s, c)
    case VoiceEntry(_) => s
  }

  /** `currentChannel?.id === channel.id`, applied to text entries only;
      voice entries are always drawn unhighlighted. */
  predicate Highlighted(current: Option<Channel>, e: Entry)
    ensures e.VoiceEntry? ==> !Highlighted(current, e)
    ensures current.None? ==> !Highlighted(current, e)
  {
    e.TextEntry? && current.Some? && current.value.id == e.channel.id
  }

  /** After clicking a text entry, a text entry is highlighted exactly when
      it shares the clicked channel's id, and no voice entry is. */
  lemma ClickHighlightsSameId(s: ChannelStore.State, c: Channel, e: Entry)
    ensures Highlighted(Click(s, TextEntry(c)).currentChannel, e) <==> e.TextEntry? && e.channel.id == c.id
  {
  }

  /** The effect `if (currentServer) fetchChannels(currentServer.id)`:
      the server whose channels are requested, if any. */
  function FetchTrigger(currentServer: Option<ServerStore.Server>): (r: Option<string>)
    ensures r.Some? <==> currentServer.Some?
    ensures r.Some? ==> r.value == currentServer.value.id
  {
    match currentServer
    case None => None
    case Some(srv) => Some(srv.id)
  }

  /** What the sidebar draws. */
  datatype View =
    | SelectServerPrompt
    | Panel(header: string, text: seq<Channel>, voice: seq<Channel>)

  /** The placeholder without a current server; otherwise the server's name
      over the two sections (an empty section is not drawn). */
  function Render(currentServer: Option<ServerStore.Server>, cs: seq<Channel>): (v: View)
    ensures v.SelectServerPrompt? <==> currentServer.None?
    ensures v.Panel? ==> v.header == currentServer.value.name
    ensures v.Panel? ==> v.text == TextChannels(cs) && v.voice == VoiceChannels(cs)
  {
    match currentServer
    case None => SelectServerPrompt
    case Some(srv) => Panel(srv.name, TextChannels(cs), VoiceChannels(cs))
  }
}

=== FILE: toasts.dfy ===
/** The toast queue held by `ToastProvider`: `showToast` appends a toast
    under a fresh random id and arms a 3-second timer; the timer and the
    close button both remove every toast carrying that id. The random id
    and the timer are inputs: the caller supplies the id, and expiry is a
    `Dismiss` issued whenever the timer fires. */
module Toasts {
  import opened Common

  /** `'success' | 'error' | 'info'`: no other kind can be built. */
  datatype ToastType = Success | Error | Info

  datatype Toast = Toast(id: string, message: string, kind: ToastType)

  /** The message `useToast` throws outside a provider. */
  const NoProviderMessage: string := "useToast must be used within ToastProvider"

  /** `showToast(message, type)` with the id it drew. */
  function ShowToast(q: seq<Toast>, id: string, message: string, kind: ToastType): (q': seq<Toast>)
    ensures |q'| == |q| + 1
    ensures q'[..|q|] == q
    ensures q'[|q|] == Toast(id, message, kind)
  {
    q + [Toast(id, message, kind)]
  }

  predicate Survives(id: string, t: Toast)
  {
    t.id != id
  }

  predicate Carries(id: string, t: Toast)
  {
    t.id == id
  }

  /** How many queued toasts carry `id`. */
  function Occurrences(q: seq<Toast>, id: string): (n: nat)
  {
    Count(t => Carries(id, t), q)
  }

  /** `prev.filter((t) => t.id !== id)`, run by the timer and by the button. */
  function Dismiss(q: seq<Toast>, id: string): (q': seq<Toast>)
    ensures forall i :: 0 <= i < |q'| ==> q'[i].id != id
    ensures forall i :: 0 <= i < |q'| ==> q'[i] in q
    ensures forall i :: 0 <= i < |q| && q[i].id != id ==> q[i] in q'
    ensures |q'| == |q| - Occurrences(q, id)
  {
    FilterPartition(t => Survives(id, t), t => Carries(id, t), q);
    Filter(t => Survives(id, t), q)
  }

  /** Dismissing an id no toast carries changes nothing. */
  lemma DismissAbsentIsNoop(q: seq<Toast>, id: string)
    requires forall i :: 0 <= i < |q| ==> q[i].id != id
    ensures Dismiss(q, id) == q
  {
    FilterKeepsAll(t => Survives(id, t), q);
  }

  /** Dismissing twice is dismissing once. */
  lemma DismissIdempotent(q: seq<Toast>, id: string)
    ensures Dismiss(Dismiss(q, id), id) == Dismiss(q, id)
  {
    FilterIdempotent(t => Survives(id, t), q);
  }

  /** Dismissal keeps the survivors' relative order: dismissing from a
      concatenation is concatenating the dismissals. */
  lemma DismissKeepsOrder(a: seq<Toast>, b: seq<Toast>, id: string)
    ensures Dismiss(a + b, id) == Dismiss(a, id) + Dismiss(b, id)
  {
    FilterConcat(t => Survives(id, t), a, b);
  }

  /** When a toast's timer fires, the queue is what it would have been had
      the toast never been shown, less any older toast that drew the same id. */
  lemma ExpiryUndoesShow(q: seq<Toast>, id: string, message: string, kind: ToastType)
    ensures Dismiss(ShowToast(q, id, message, kind), id) == Dismiss(q, id)
  {
    DismissKeepsOrder(q, [Toast(id, message, kind)], id);
  }

  /** With a fresh id, showing and then expiring a toast restores the queue. */
  lemma ExpiryOfFreshToastRestoresQueue(q: seq<Toast>, id: string, message: string, kind: ToastType)
    requires forall i :: 0 <= i < |q| ==> q[i].id != id
    ensures Dismiss(ShowToast(q, id, message, kind), id) == q
  {
    ExpiryUndoesShow(q, id, message, kind);
    DismissAbsentIsNoop(q, id);
  }

  /** Timers that fire in either order leave the same queue. */
  lemma {:induction false} DismissCommutes(q: seq<Toast>, a: string, b: string)
    ensures Dismiss(Dismiss(q, a), b) == Dismiss(Dismiss(q, b), a)
  {
    if |q| > 0 {
      var head, tail := q[..1], q[1..];
      assert q == head + tail;
      DismissKeepsOrder(head, tail, a);
      DismissKeepsOrder(head, tail, b);
      DismissKeepsOrder(Dismiss(head, a), Dismiss(tail, a), b);
      DismissKeepsOrder(Dismiss(head, b), Dismiss(tail, b), a);
      DismissCommutes(tail, a, b);
    }
  }

  /** `useToast`: the provider's context, or the error it throws without one. */
  function UseToast<Ctx>(context: Option<Ctx>): (r: Result<Ctx, string>)
    ensures r.Err? <==> context.None?
    ensures r.Ok? ==> r.value == context.value
    ensures r.Err? ==> r.error == NoProviderMessage
  {
    match context
    case None => Err(NoProviderMessage)
    case Some(c) => Ok(c)
  }
}

=== FILE: websocket.dfy ===
/** The client's WebSocket wrapper (`WebSocketManager`): one optional socket,
    an append-only registry of inbound-message callbacks, the last token it
    connected with, and the frames written to the wire.

    The browser socket is represented only by its URL and `readyState`; the
    browser moves `readyState` (see `ReadyStateChanged`). `JSON.stringify` of
    an outbound frame and `JSON.parse` of an inbound one are opaque: the
    model keeps the outbound `Frame` object itself, and takes the parser as a
    parameter. Callbacks are opaque values of a type parameter `C`. */
module WebSocket {
  import opened Common

  /** The fallback for `NEXT_PUBLIC_WS_URL`. */
  const DefaultWsUrl: string := "ws://localhost:8080/ws"

  /** `WebSocket.readyState`. */
  datatype ReadyState = Connecting | Open | Closing | Closed

  datatype Socket = Socket(url: string, readyState: ReadyState)

  /** The object literal `{ type, channel_id, content? }` handed to `send`. */
  datatype Frame = Frame(tag: string, channelId: string, content: Option<string>)

  /** What the four public helpers ask to send. */
  datatype Request =
    | JoinChannel(channelId: string)
    | LeaveChannel(channelId: string)
    | SendMessage(channelId: string, content: string)
    | SendTyping(channelId: string)

  /** The frame each helper builds (`joinChannel` … `sendTyping`). */
  function Encode(req: Request): (f: Frame)
    ensures f.tag == match req
      case JoinChannel(_) => "join_channel"
      case LeaveChannel(_) => "leave_channel"
      case SendMessage(_, _) => "send_message"
      case SendTyping(_) => "typing"
    ensures Decode(f) == Some(req)
    ensures f.channelId == req.channelId
    ensures f.content.Some? <==> req.SendMessage?
  {
    match req
    case JoinChannel(id) => Frame("join_channel", id, None)
    case LeaveChannel(id) => Frame("leave_channel", id, None)
    case SendMessage(id, text) => Frame("send_message", id, Some(text))
    case SendTyping(id) => Frame("typing", id, None)
  }

  /** Reads a frame back as the request that produced it, if any did. */
  function Decode(f: Frame): (r: Option<Request>)
    ensures r.Some? ==> f.tag in {"join_channel", "leave_channel", "send_message", "typing"}
    ensures r.Some? ==> r.value.channelId == f.channelId
    ensures r.Some? ==> (f.content.Some? <==> r.value.SendMessage?)
    ensures r.Some? && r.value.SendMessage? ==> r.value.content == f.content.value
    ensures r.Some? ==> (r.value.JoinChannel? <==> f.tag == "join_channel")
    ensures r.Some? ==> (r.value.LeaveChannel? <==> f.tag == "leave_channel")
    ensures r.Some? ==> (r.value.SendMessage? <==> f.tag == "send_message")
    ensures r.Some? ==> (r.value.SendTyping? <==> f.tag == "typing")
  {
    match f.tag
    case "join_channel" => if f.content.None? then Some(JoinChannel(f.channelId)) else None
    case "leave_channel" => if f.content.None? then Some(LeaveChannel(f.channelId)) else None
    case "send_message" => if f.content.Some? then Some(SendMessage(f.channelId, f.content.value)) else None
    case "typing" => if f.content.None? then Some(SendTyping(f.channelId)) else None
    case _ => None
  }

  /** Every frame that reads back as a request is exactly that request's frame,
      so the four helpers produce four disjoint families of frames. */
  lemma DecodeEncode(f: Frame)
    ensures Decode(f).Some? ==> Encode(Decode(f).value) == f
  {
  }

  /** Distinct requests are written as distinct frames. */
  lemma EncodeInjective(a: Request, b: Request)
    ensures Encode(a) == Encode(b) ==> a == b
  {
    assert Decode(Encode(a)) == Some(a);
    assert Decode(Encode(b)) == Some(b);
  }

  /** The manager's fields: `ws`, `messageCallbacks`, `token`, and the frames
      written so far to any socket it owned. */
  datatype Manager<C> = Manager(ws: Option<Socket>, callbacks: seq<C>, token: Option<string>, sent: seq<Frame>)

  predicate IsOpen<C>(m: Manager<C>)
  {
    m.ws.Some? && m.ws.value.readyState == Open
  }

  /** The URL `connect` opens: `${WS_URL}?token=${token}`, no escaping. */
  function ConnectUrl(env: Option<string>, token: string): (url: string)
  {
    EnvOr(env, DefaultWsUrl) + "?token=" + token
  }

  /** Under one configuration the URL determines the token. */
  lemma ConnectUrlInjective(env: Option<string>, t1: string, t2: string)
    ensures ConnectUrl(env, t1) == ConnectUrl(env, t2) ==> t1 == t2
  {
    if ConnectUrl(env, t1) == ConnectUrl(env, t2) {
      PrefixCancel(EnvOr(env, DefaultWsUrl) + "?token=", t1, t2);
    }
  }

  /** The manager after `connect`, and whether `connect` threw. */
  datatype Connected<C> = Connected(manager: Manager<C>, threw: bool)

  /** `connect(token)`: records the token, then opens a new socket, replacing
      any previous one without closing it; the registry is kept. The
      `WebSocket` constructor throws a `SyntaxError` for a URL the browser
      rejects (`urlAccepted` is false: unparsable, a fragment such as a `#`
      in the token, or a scheme other than ws/wss/http/https); the error
      leaves `connect` after the token was recorded, and the old socket
      stays in place. */
  function Connect<C>(m: Manager<C>, env: Option<string>, token: string, urlAccepted: string -> bool): (r: Connected<C>)
    ensures r.threw <==> !urlAccepted(ConnectUrl(env, token))
    ensures r.manager.token == Some(token)
    ensures r.manager.callbacks == m.callbacks && r.manager.sent == m.sent
    ensures r.threw ==> r.manager.ws == m.ws
    ensures !r.threw ==> r.manager.ws == Some(Socket(ConnectUrl(env, token), Connecting)) && !IsOpen(r.manager)
    ensures !r.threw && env.None? ==> r.manager.ws.value.url == DefaultWsUrl + "?token=" + token
  {
    var url := ConnectUrl(env, token);
    var m1 := m.(token := Some(token));
    if urlAccepted(url) then Connected(m1.(ws := Some(Socket(url, Connecting))), false)
    else Connected(m1, true)
  }

  /** A rejected URL does not cut an open connection: the old socket stays
      open and the helpers keep writing to it. */
  lemma RejectedUrlKeepsOldSocket<C>(m: Manager<C>, env: Option<string>, token: string, urlAccepted: string -> bool, req: Request)
    requires IsOpen(m) && !urlAccepted(ConnectUrl(env, token))
    ensures var m' := Connect(m, env, token, urlAccepted).manager;
      IsOpen(m') && Perform(m', req).sent == m.sent + [Encode(req)]
  {
  }

  /** The browser moving the current socket to another `readyState`
      (handshake done, closing, closed); without a socket nothing happens. */
  function ReadyStateChanged<C>(m: Manager<C>, rs: ReadyState): (m': Manager<C>)
    ensures m'.ws.Some? <==> m.ws.Some?
    ensures m.ws.Some? ==> m'.ws.value.url == m.ws.value.url && m'.ws.value.readyState == rs
    ensures m'.callbacks == m.callbacks && m'.token == m.token && m'.sent == m.sent
  {
    if m.ws.Some? then m.(ws := Some(m.ws.value.(readyState := rs))) else m
  }

  /** `disconnect()`: drops the socket if there is one; otherwise nothing. */
  function Disconnect<C>(m: Manager<C>): (m': Manager<C>)
    ensures m'.ws.None?
    ensures m'.callbacks == m.callbacks && m'.token == m.token && m'.sent == m.sent
    ensures m.ws.None? ==> m' == m
    ensures !IsOpen(m')
  {
    if m.ws.Some? then m.(ws := None) else m
  }

  /** Disconnecting twice is disconnecting once. */
  lemma DisconnectIdempotent<C>(m: Manager<C>)
    ensures Disconnect(Disconnect(m)) == Disconnect(m)
  {
  }

  /** `onMessage(cb)`: appends to the registry. */
  function OnMessage<C>(m: Manager<C>, cb: C): (m': Manager<C>)
    ensures |m'.callbacks| == |m.callbacks| + 1
    ensures m'.callbacks[..|m.callbacks|] == m.callbacks
    ensures m'.callbacks[|m.callbacks|] == cb
    ensures m'.ws == m.ws && m'.token == m.token && m'.sent == m.sent
  {
    m.(callbacks := m.callbacks + [cb])
  }

  /** The private `send`: writes the frame when a socket exists and is OPEN,
      otherwise drops it (only a console warning is observable). */
  function Send<C>(m: Manager<C>, f: Frame): (m': Manager<C>)
    ensures |m'.sent| == |m.sent| + (if IsOpen(m) then 1 else 0)
    ensures m'.sent[..|m.sent|] == m.sent
    ensures IsOpen(m) ==> m'.sent[|m.sent|] == f
    ensures !IsOpen(m) ==> m' == m
    ensures m'.ws == m.ws && m'.callbacks == m.callbacks && m'.token == m.token
  {
    if IsOpen(m) then m.(sent := m.sent + [f]) else m
  }

  /** The public helpers `joinChannel`, `leaveChannel`, `sendMessage`, `sendTyping`. */
  function Perform<C>(m: Manager<C>, req: Request): (m': Manager<C>)
    ensures IsOpen(m) ==> m'.sent == m.sent + [Encode(req)]
    ensures !IsOpen(m) ==> m' == m
    ensures m'.ws == m.ws && m'.callbacks == m.callbacks && m'.token == m.token
  {
    Send(m, Encode(req))
  }

  /** After `disconnect`, every helper is a no-op. */
  lemma SendAfterDisconnectDropped<C>(m: Manager<C>, req: Request)
    ensures Perform(Disconnect(m), req) == Disconnect(m)
  {
  }

  // ---------------------------------------------------------------------------
  // Inbound fan-out (the socket's `onmessage` handler)
  // ---------------------------------------------------------------------------

  /** One call `callback(message)`. */
  datatype Invocation<C, V> = Invocation(callback: C, message: V)

  /** `onmessage`: parses the frame; if parsing throws, no callback runs.
      Otherwise `forEach` calls the callbacks in registration order; a callback
      that throws (`throws(cb, v)`) ends the `forEach`, and the exception is
      caught by the same `catch` that handles parse errors. The manager itself
      is not changed. */
  method HandleInbound<C, V>(m: Manager<C>, data: string, parse: string -> Option<V>, throws: (C, V) -> bool)
    returns (calls: seq<Invocation<C, V>>)
    ensures parse(data).None? ==> calls == []
    ensures parse(data).Some? ==>
      && |calls| <= |m.callbacks|
      && (forall i :: 0 <= i < |calls| ==> calls[i] == Invocation(m.callbacks[i], parse(data).value))
      && (forall i :: 0 <= i < |calls| - 1 ==> !throws(m.callbacks[i], parse(data).value))
      && (|calls| < |m.callbacks| ==> |calls| > 0 && throws(m.callbacks[|calls| - 1], parse(data).value))
    ensures parse(data).Some? && (forall i :: 0 <= i < |m.callbacks| ==> !throws(m.callbacks[i], parse(data).value)) ==>
      |calls| == |m.callbacks|
  {
    calls := [];
    var parsed := parse(data);
    if parsed.None? {
      return;
    }
    var v := parsed.value;
    var i := 0;
    var stopped := false;
    while i < |m.callbacks| && !stopped
      invariant 0 <= i <= |m.callbacks|
      invariant |calls| == i
      invariant forall j :: 0 <= j < i ==> calls[j] == Invocation(m.callbacks[j], v)
      invariant forall j :: 0 <= j < i - 1 ==> !throws(m.callbacks[j], v)
      invariant stopped ==> i > 0 && throws(m.callbacks[i - 1], v)
      invariant !stopped && i > 0 ==> !throws(m.callbacks[i - 1], v)
    {
      calls := calls + [Invocation(m.callbacks[i], v)];
      stopped := throws(m.callbacks[i], v);
      i := i + 1;
    }
  }

  // ---------------------------------------------------------------------------
  // Runs of manager operations
  // ---------------------------------------------------------------------------

  /** Every way the rest of the client can touch the manager. */
  datatype Op<C> =
    | DoConnect(env: Option<string>, token: string, urlAccepted: string -> bool)
    | DoDisconnect
    | DoRegister(cb: C)
    | DoRequest(req: Request)
    | BrowserReadyState(rs: ReadyState)

  function Step<C>(m: Manager<C>, op: Op<C>): (m': Manager<C>)
  {
    match op
    case DoConnect(env, token, urlAccepted) => Connect(m, env, token, urlAccepted).manager
    case DoDisconnect => Disconnect(m)
    case DoRegister(cb) => OnMessage(m, cb)
    case DoRequest(req) => Perform(m, req)
    case BrowserReadyState(rs) => ReadyStateChanged(m, rs)
  }

  function Run<C>(m: Manager<C>, ops: seq<Op<C>>): (m': Manager<C>)
    decreases |ops|
  {
    if |ops| == 0 then m else Run(Step(m, ops[0]), ops[1..])
  }

  predicate IsRegister<C>(op: Op<C>)
  {
    op.DoRegister?
  }

  /** No operation ever removes or reorders a callback: after any run the old
      registry is a prefix of the new one, which grew by one entry per
      `onMessage` call; likewise the written frames only grow. */
  lemma {:induction false} RegistryOnlyGrows<C>(m: Manager<C>, ops: seq<Op<C>>)
    ensures m.callbacks <= Run(m, ops).callbacks
    ensures |Run(m, ops).callbacks| == |m.callbacks| + Count(IsRegister, ops)
    ensures m.sent <= Run(m, ops).sent
    decreases |ops|
  {
    if |ops| > 0 {
      var m1 := Step(m, ops[0]);
      RegistryOnlyGrows(m1, ops[1..]);
      assert ops == [ops[0]] + ops[1..];
      FilterConcat(IsRegister, [ops[0]], ops[1..]);
    }
  }
}
